=== FILE: README.md ===
# CDEvents simulation: a verified model of the record builders and flatteners

This project models the core of a simulator that produces continuous-delivery
telemetry records shaped after the CDEvents standard: its "Source and
Subject" layout, and its `taskRun` and `pipelineRun` core subjects. The model
covers four parts:

- **Event builder and lifecycle step** (`CDEvent`, module `CDEvent`).
  - A new event is built from categorical draws.
  - A successor event copies the identity, advances the state
    `queued → started → finished`, and rewrites the state word of
    `context.type` the way Python's `str.replace` does. Its timestamp moves
    forward by a run time.
- **Run-detail builders** (`TaskRun`, `PipelineRun`, module `RunDetails`).
  - A task run carries the previous detail's id, pipeline name and url
    forward. A pipeline run always draws afresh.
  - On `finished`, both add the outcome and, for `error` or `failure`, an
    error text.
- **Lifecycle driver** (`create_event_lifecycle`, `create_events`, module
  `Lifecycle`).
  - One event is built, then its successors until one is `finished`.
  - Each record is tagged with a fresh `event_id` and appended, with its id,
    to two parallel lists.
- **Flatteners** (module `Flatten`, plus module `Legacy` for the older
  root-level variant). They turn a nested record into a one-level map, then
  back-fill the outcome and error columns with null.
  - The simulator's `flatten_event_entry` keeps `run_errors` as it is.
  - The Lambda `flatten_event` prefixes it to `run_run_errors`.
  - The processed-events script back-fills a column named `errors`.

The older root-level builders are modelled too (module `Legacy`). Their
`CDEvent` may start in `finished`. Their `PipelineRun` uses a differently
spelled host and records an error text only for `failure`, under `errors`.

Modelling choices:

- Random draws (`random.choices`) are values of small enumerations. They are
  supplied by the caller. The lifecycle reads them from a stream
  `dice: nat -> Draws` at a cursor `roll`.
- `uuid.uuid4()` is a natural-number counter `next`, so ids are fresh by
  construction.
- Timestamps are natural numbers. The wall clock is the `clock` draw, and a
  successor's run time is a natural-number draw.
- A record's dictionary is a `Json` object: an ordered field list, so
  Python's insertion order is kept. A flattened record is a
  `map<string, Json>`, where a later write overwrites an earlier one, as in
  a Python dict.
- The flatteners are pure functions of the record, so flattening is
  deterministic and leaves its input unchanged by construction.
- Flattening can fail where the Python would raise, and those failures are
  modelled as a `Result`:
  - a missing key gives `MissingKey`;
  - a layer that is not a dictionary gives `NotAnObject`;
  - a content layer that names no run detail gives `NoRunKey`. In the Python
    this is the index with `None`.

## Model

A stored record flattens to seventeen columns: `event_id`, five `context_`
columns, two `subject_` columns, two `content_` columns and seven `run_`
columns, the last two being `run_outcome` and `run_errors`.

| member | source | states |
|---|---|---|
| Vocabulary.EventName | code/CDEvent.py:98 | `event_name` is `{type}1`, `{type}2` or `{type}3` |
| Vocabulary.Next | code/CDEvent.py:60-65 | queued goes to started and started to finished; finished and unknown go to unknown; every state other than unknown changes |
| Vocabulary.NextApproachesFinished | code/simulation_functions.py:96-108 | from queued or started, one step brings the state one step nearer finished, and it reaches finished exactly from started, so the driver loop ends |
| Vocabulary.MessageInVocabulary | code/TaskRun.py:81-82 | an `error` message is one of the four listed messages and is never "Unit tests failed" |
| Text.Replace | code/CDEvent.py:75 | `str.replace` replaces every non-overlapping occurrence left to right, an empty pattern before every character and at the end; replacing a pattern by itself leaves the string unchanged |
| Text.ReplaceAbsent | code/CDEvent.py:75 | replacing a pattern that occurs nowhere in the string leaves it unchanged |
| Text.ReplaceWhole | code/CDEvent.py:75 | replacing the whole string by `str.replace` gives the replacement |
| Text.ReplaceSkipsSegment | code/CDEvent.py:75 | `str.replace` leaves a dot-terminated segment that cannot hold the pattern, and its dot, unchanged |
| Records.RunFields | code/PipelineRun.py:34-56 | a run detail's dictionary holds the five base keys, plus `outcome` exactly when finished, plus the error key exactly when an error text was recorded |
| Records.ContextKeys | code/CDEvent.py:137-150 | the context holds exactly `version`, `id`, `source`, `type` and `timestamp` |
| Records.SubjectKeys | code/CDEvent.py:171-185 | the subject holds exactly `id`, `type` and `content` |
| Records.ContentFields | code/CDEvent.py:180-213 | the content holds `task`, `url` and exactly one run-detail key, and that key is the event type |
| Records.EntryFields | code/CDEvent.py:109-111 | an entry has exactly the keys `context` and `subject` |
| Records.Record | code/simulation_functions.py:90-91 | the stored record carries its `event_id` |
| RunDetails.Conclude | code/TaskRun.py:74-88 | an outcome is added exactly when finished; `error` records the drawn message, `failure` records "Unit tests failed" and `success` records nothing |
| RunDetails.TaskRunOf | code/TaskRun.py:27-88 | without a prior task run the detail takes the second drawn id and pipeline name; with one, it keeps the prior id, pipeline name and url; the source is the event's; it concludes exactly when finished |
| RunDetails.TaskRunDiscardsFirstDraw | code/TaskRun.py:27-72 | the pipeline name drawn on entry never reaches the task run detail |
| RunDetails.PipelineRunOf | code/PipelineRun.py:27-56 | always a fresh id and the freshly drawn pipeline under `https://api.example_system.com/namespace/`; the event's source; it concludes exactly when finished |
| RunDetails.RunEntryKeys | code/PipelineRun.py:34-56 | the detail has the five base keys before finished; then `outcome` too, plus `run_errors` exactly for `error` or `failure`; `outcome` holds the outcome's text |
| CDEvent.NewEvent | code/CDEvent.py:90-117 | a new task run starts in started, a new pipeline run in the drawn queued or started, never finished; the draws are copied; the subject id is drawn before the context id, then the run detail's ids; a pipeline run takes the drawn pipeline name and a task run the second drawn one; the run detail has not concluded; the record is coherent |
| CDEvent.Successor | code/CDEvent.py:49-87 | a successor copies user, environment, type, name, version, context id, source, subject id, task and url; its state is the next state and differs from the predecessor's; its timestamp is the run time later; a task run keeps the run detail's identity and a pipeline run draws a new one; the run detail concludes with the step's own draws, by the outcome rules, exactly when the new state is finished; coherence is kept |
| CDEvent.ContextTypeStep | code/CDEvent.py:75 | replacing the old state word in `{env}.simulated_events.{type}.{state}` changes only the state segment, because no environment or type contains a state word |
| Lifecycle.RecordsTagged | code/simulation_functions.py:90-105 | each stored record of a lifecycle carries the event id drawn for it, at the same index |
| Lifecycle.BeginLifecycle | code/simulation_functions.py:86-94 | a lifecycle starts with an event id drawn before the new event, and the new event, on its own, starts a chained lifecycle; its subject, context and run-detail ids come after the event id from the same counter and differ from it |
| Lifecycle.ExtendLifecycle | code/simulation_functions.py:96-105 | each step appends the successor of the last record, built from the next draws after its event id is drawn; the lifecycle stays chained, moves one step nearer finished, and the ids stay fresh; a new pipeline run detail's id is drawn after every earlier id, and no event id equals a subject, context or run-detail id |
| Lifecycle.AdvancingEnds | code/simulation_functions.py:96-108 | a lifecycle that advances one step at a time and ends in finished has pairwise distinct states, and only its last is finished |
| Lifecycle.TaggedAppend | code/simulation_functions.py:93-105 | appending a lifecycle's records and ids keeps the two lists aligned index by index |
| Lifecycle.CreateEventLifecycle | code/simulation_functions.py:86-110 | it appends 2 records, or 3 exactly for a pipeline run starting queued; the last is finished and no state repeats; the records share the first's identity and are paced by the drawn run times; each record's run detail concludes with that record's own draws; a task run keeps the first record's run-detail id, pipeline name and url throughout, and a pipeline run draws its id and pipeline name afresh for each record, the ids increasing; the new event ids are fresh and increasing, and none equals a subject, context or run-detail id of the lifecycle; all these uuids lie between the counter's old and new values; earlier records and ids are unchanged |
| Lifecycle.CreateEvents | code/simulation_functions.py:158-164 | the record and id lists are aligned, hold between 2n and 3n entries, and the ids are fresh and distinct; every stored record is the entry of a coherent built event tagged with the id beside it, so every flattener lemma applies to it |
| Flatten.RenameInjective | code/simulation_functions.py:289-317 | two keys that a layer neither skips nor keeps verbatim are renamed to the same column only when they are the same key |
| Flatten.RenameCollision | code/simulation_functions.py:312-317 | a verbatim key can collide with a prefixed one: keeping `run_errors` verbatim sends `errors` and `run_errors` to one column; prefixing every key sends `errors` to `run_errors` and `run_errors` to `run_run_errors` |
| Flatten.PutKeys | code/simulation_functions.py:289-317 | copying a layer adds exactly its renamed keys and leaves every other column as it was |
| Flatten.ValueAt | code/simulation_functions.py:286 | indexing succeeds exactly when the key is present, and otherwise fails with that key |
| Flatten.ObjectAt | code/simulation_functions.py:289-312 | indexing a nested dictionary succeeds exactly when the key holds a dictionary, and otherwise reports a missing key or a non-dictionary |
| Flatten.RunKeyOf | code/simulation_functions.py:301-309 | the run key is found exactly when the content holds `taskRun` or `pipelineRun`; then it is one of them, it is present, and no later field of the content has a run key, so the last one wins |
| Flatten.BackFill | code/simulation_functions.py:321-326 | the back-fill adds exactly the missing outcome and error columns, as null, and leaves every other column as it was |
| Flatten.FlattenEventEntry | code/simulation_functions.py:229-328 | a value that is not a dictionary, or a dictionary without `event_id`, fails to flatten; whatever dictionary flattens has `event_id`, `run_outcome` and `run_errors` columns |
| Flatten.FlattenEvent | lambda_function.py:13-111 | a value that is not a dictionary, or a dictionary without `event_id`, fails to flatten; whatever dictionary flattens has `event_id`, `run_outcome` and `run_errors` columns |
| Flatten.FlatRecord | code/simulation_functions.py:285-326 | the reference flattening of a record has the seventeen columns |
| Flatten.ContextLayer | code/simulation_functions.py:289-291 | context keys get `context_` with values unchanged |
| Flatten.SubjectLayer | code/simulation_functions.py:294-299 | subject keys other than `content` get `subject_` |
| Flatten.ContentLayer | code/simulation_functions.py:302-309 | content keys other than the run key get `content_` |
| Flatten.RunLayer | code/simulation_functions.py:312-317 | run keys get `run_` except those kept verbatim; the error text lands in the column the rule names |
| Flatten.FlattenRecord | code/simulation_functions.py:285-326 | the simulator's flattener turns every stored record into its reference columns |
| Flatten.FlattenedSchema | code/simulation_functions.py:321-326 | every stored record flattens to the same seventeen keys, whatever its kind, state and outcome |
| Flatten.FlattenedOutcome | code/simulation_functions.py:321-326 | `run_outcome` is null exactly before finished, and `run_errors` holds text exactly for a finished run that did not succeed |
| Flatten.FlattenRejects | code/simulation_functions.py:286-312 | a dictionary without `event_id`, or without `context`, or whose content names no run detail fails to flatten, in both entry-level flatteners |
| Flatten.LambdaFlattenRecord | lambda_function.py:69-107 | the Lambda flattener turns every stored record into its reference columns, with the error text under `run_run_errors` |
| Flatten.LambdaErrorColumns | lambda_function.py:96-107 | the Lambda `run_errors` column is always present and null; `run_run_errors` is present exactly when the run has an error text, and then holds it |
| Flatten.LambdaKeysVary | lambda_function.py:96-107 | a record with an error text and one without flatten to different key sets under the Lambda flattener |
| Legacy.LegacyConclude | PipelineRun.py:25-38 | an outcome is added exactly when finished; only `failure` records an error text, and that text is "Unit tests failed" |
| Legacy.LegacyPipelineRun | PipelineRun.py:11-38 | a fresh id, the event's source, the drawn pipeline under `https://api.example_stystem.com/namespace/`; keys are the base five, plus `outcome` when finished, plus `errors` exactly for a finished `failure`; the recorded finish is the older outcome rule's: the drawn outcome once finished, with "Unit tests failed" only for `failure` |
| Legacy.LegacyErrorDropped | PipelineRun.py:30-33 | an older pipeline run finishing with `error` has no error text, while the current builder records the drawn message |
| Legacy.LegacyFailureStandsOut | PipelineRun.py:30-38 | an older failed pipeline run has an error column and an older errored one has none |
| Legacy.LegacyNewEvent | CDEvent.py:11-85 | a task run starts in started or finished, a pipeline run in queued, started or finished; source, context type and subject url follow their formats; the subject id is drawn before the context id; a pipeline run gets the older fresh detail, with the drawn pipeline name and the older outcome rule |
| Legacy.LegacyContentKey | CDEvent.py:30-34 | the content holds exactly one run-detail key, named by the event type |
| Legacy.FlattenProcessed | simulate_processed_events.py:14-49 | an entry that is not a dictionary, or has no `context`, fails to flatten; whatever flattens has `event_id` and `run_outcome`, and `errors` or `run_errors` |
| Legacy.ProcessedFlattenRecord | simulate_processed_events.py:14-49 | the processed-events flattener turns an older entry into its reference columns: the `errors` key becomes `run_errors`, and `errors` is back-filled |
| Legacy.ProcessedErrorColumns | simulate_processed_events.py:38-47 | `run_errors` is present exactly when the run has an error text; otherwise `errors` is present, and null |
| Legacy.ProcessedKeysVary | simulate_processed_events.py:38-47 | a record with an error text and one without flatten to different key sets |
| Legacy.ProcessedFixedRecord | simulate_processed_events.py:42-47 | back-filling `run_errors` instead gives every older record the same seventeen columns as the simulator's flattener |

## Left out

- AWS plumbing is not modelled: S3 and SSM clients, the parameter lookups, `send_events`, `create_and_send_events`, `send_event`, `get_event_body` and `lambda_handler`. These are network I/O.
- `code/simulate_events.py` is not modelled. It is an import-time script with S3 I/O and sleeps.
- The weights of `random.choices` are not modelled. Each draw is any element of its listed support.
- `datetime.now`, `strptime`, `str(datetime)` formatting, `np.random.normal` and `timedelta` are not modelled. Timestamps are naturals, the clock reading is a draw, and a run time is a natural draw.
- `np` and `timedelta` are never imported in `code/CDEvent.py`, so a successor would raise as written. The model follows the evidently intended behaviour: the timestamp moves forward by the run time.
- `CDEvent.Successor`: the source's test expects a strictly later timestamp, but the absolute value of a normal draw may be 0. The contract gives strictly later only for a positive run time.
- `is 'error'` and `is 'failure'` compare identity in the source. They are modelled as string equality, which is what interning gives in practice.
- The stale `self.type` attribute of a successor (code/CDEvent.py:79) is not modelled. It never reaches the entry.
- Python aliasing is not modelled: a successor shares and mutates the dictionaries of its (deep-copied) predecessor. Records are immutable values here, which is what the deep copies in `create_event_lifecycle` achieve. So "stored records do not change" holds by construction.
- The older task-run builder (`TaskRun.py` at the repository root) is not part of this model. `Legacy.LegacyNewEvent` takes the task run detail as an input.
- The `print` of every flattened event in the Lambda flattener (lambda_function.py:109) is not modelled. It is console output and does not change the result.
- The `to_string` printers, JSON serialisation, the module-level loop of `simulate_processed_events.py` and its pandas/CSV export are not modelled. They are I/O.
- A flattened record is a `map`, so its column order is not modelled. In the Python dict the back-filled `run_outcome` and error columns come last, and the CSV export keeps that order.
- Older task-run entries are assumed to name their error key `errors`, as the older pipeline run does. The older task-run builder is not part of this model, so this is not checked against its code. The `Legacy` lemmas that render entries with `errors` rely on it for task runs.
- Flatten.FlattenRejects covers the common failure paths, not every malformed dictionary. A non-dictionary value in the run layer is one that is left out.

## Findings

| source | as written | input that shows it | evidently intended | confidence | as-written member | corrected member |
|---|---|---|---|---|---|---|
| lambda_function.py:96-98 | every run key gets `run_`, so a stored `run_errors` becomes `run_run_errors` and the back-filled `run_errors` is always null | a finished task run with outcome `failure`: its flattened record has `run_run_errors = "Unit tests failed"` and `run_errors = null`, while a `success` record has no `run_run_errors` | the error text lands in `run_errors` and every record has the same columns, as the simulator's flattener does | medium, not executed | Flatten.LambdaKeysVary | Flatten.FlattenedSchema |
| PipelineRun.py:30-33 | an `error` outcome draws a message but never writes it to the entry | a finished older pipeline run with outcome `error`: the entry has `outcome = "error"` and no error key | the message is recorded, as `code/PipelineRun.py:47-51` does | high, not executed | Legacy.LegacyErrorDropped | RunDetails.PipelineRunOf |
| simulate_processed_events.py:42-47 | the back-fill writes `errors`, but the prefixed error key is `run_errors`, so it tests one column and fills another | an older pipeline run with outcome `failure` flattens with `run_errors` and no `errors`; an older pipeline run that is unfinished, or finished with `success` or `error`, has `errors` and no `run_errors` | one error column for every record | high, not executed | Legacy.ProcessedKeysVary | Legacy.ProcessedFixedRecord |

=== FILE: cd_event.dfy ===
/** `CDEvent`: building a new event from random draws, and building the
    successor of an existing event one lifecycle step later. */
module CDEvent {
  import opened Common
  import opened Vocabulary
  import opened Records
  import opened RunDetails
  import Text

  /** The states a new pipeline run may be drawn in. */
  type StartState = s: State | s == Queued || s == Started witness Queued

  /** The draws a new event consults; `clock` is the wall-clock reading. */
  datatype EventDraws = EventDraws(
    user: User,
    env: Env,
    kind: Kind,
    name: NameIndex,
    start: StartState,
    version: Version,
    task: Task,
    clock: nat)

  /** A new event. The subject id, then the context id, then the run detail's
      ids are drawn from the uuid counter `next`; the counter after the last
      draw is returned with the event. */
  function NewEvent(d: EventDraws, rd: RunDraws, next: nat): (r: (Event, nat))
    ensures Coherent(r.0)
    ensures r.0.kind == TaskRun ==> r.0.state == Started
    ensures r.0.kind == PipelineRun ==> r.0.state == d.start
    ensures r.0.state == Queued || r.0.state == Started
    ensures r.0.run.finish.None?
    ensures && r.0.user == d.user && r.0.env == d.env && r.0.kind == d.kind && r.0.name == d.name
            && r.0.version == d.version && r.0.task == d.task && r.0.timestamp == d.clock
    ensures r.0.subjectId == next && r.0.contextId == next + 1
    ensures next + 2 <= r.0.run.id < r.1
    ensures r.0.run.finish == Conclude(r.0.state, rd)
    ensures r.0.kind == PipelineRun ==> r.0.run.pipeline == rd.pipeline
    ensures r.0.kind == TaskRun ==> r.0.run.pipeline == rd.redraw
  {
    var state := if d.kind == TaskRun then Started else d.start;
    var source := Source(d.env, d.user);
    var (run, next') :=
      match d.kind
      case PipelineRun => PipelineRunOf(source, state, next + 2, rd)
      case TaskRun => TaskRunOf(source, state, None, next + 2, rd);
    var e := Event(
      d.user, d.env, d.kind, d.name, state,
      d.version, next + 1, source, ContextType(d.env, d.kind, state), d.clock,
      next, d.task, SubjectUrl(d.user, d.env, d.kind, d.name),
      run);
    (e, next')
  }

  /** The successor of `prev`, `runTime` later. Identity is copied, the state
      advances, the state word of the context type is replaced (as Python's
      `str.replace` does), and the run detail is rebuilt: a task run carries
      the previous detail forward, a pipeline run draws a new one. */
  function Successor(prev: Event, runTime: nat, rd: RunDraws, next: nat): (r: (Event, nat))
    ensures && r.0.user == prev.user && r.0.env == prev.env && r.0.kind == prev.kind
            && r.0.name == prev.name && r.0.version == prev.version && r.0.contextId == prev.contextId
            && r.0.source == prev.source && r.0.subjectId == prev.subjectId && r.0.task == prev.task
            && r.0.url == prev.url
    ensures r.0.state == Next(prev.state)
    ensures prev.state != Unknown ==> r.0.state != prev.state
    ensures r.0.timestamp == prev.timestamp + runTime
    ensures runTime > 0 ==> r.0.timestamp > prev.timestamp
    ensures prev.kind == TaskRun ==> && r.0.run.id == prev.run.id && r.0.run.pipeline == prev.run.pipeline
                                     && r.0.run.url == prev.run.url && r.1 == next + 1
    ensures prev.kind == PipelineRun ==> r.0.run.id == next && r.0.run.pipeline == rd.pipeline && r.1 == next + 1
    ensures r.0.run.finish == Conclude(r.0.state, rd)
    ensures Coherent(prev) ==> Coherent(r.0)
  {
    var state := Next(prev.state);
    var contextType := Text.Replace(prev.contextType, StateText(prev.state), StateText(state));
    var (run, next') :=
      match prev.kind
      case PipelineRun => PipelineRunOf(prev.source, state, next, rd)
      case TaskRun => TaskRunOf(prev.source, state, Some(prev.run), next, rd);
    ContextTypeStep(prev.env, prev.kind, prev.state, state);
    var e := prev.(state := state, contextType := contextType,
                   timestamp := prev.timestamp + runTime, run := run);
    (e, next')
  }

  /** A character of each state word that no environment, no event type and
      not "simulated_events" contains. */
  function Witness(s: State): char
  {
    match s
    case Queued => 'q'
    case Started => 'r'
    case Finished => 'f'
    case Unknown => 'w'
  }

  /** No segment of a context type other than the state word can hold a
      state word: each is shorter than it or lacks its witness character. */
  predicate Avoids(w: string, s: State)
  {
    |w| < |StateText(s)| || Witness(s) !in w
  }

  lemma StateWordShape(s: State)
    ensures '.' !in StateText(s) && Witness(s) in StateText(s)
  {
    match s
    case Queued =>
    case Started =>
    case Finished =>
    case Unknown =>
  }

  lemma EnvAvoidsStateWords(env: Env, s: State)
    ensures Avoids(EnvText(env), s)
  {
    match env
    case Dev =>
    case Prod =>
    case Staging =>
      match s
      case Queued =>
      case Started =>
      case Finished =>
      case Unknown =>
  }

  lemma InfixAvoidsStateWords(s: State)
    ensures Avoids("simulated_events", s)
  {
    match s
    case Queued =>
    case Started =>
    case Finished =>
    case Unknown =>
  }

  lemma KindAvoidsStateWords(kind: Kind, s: State)
    ensures Avoids(KindText(kind), s)
  {
    match kind {
      case PipelineRun =>
        match s {
          case Queued =>
          case Started =>
          case Finished =>
          case Unknown =>
        }
      case TaskRun =>
        match s {
          case Queued =>
          case Started =>
          case Finished =>
          case Unknown =>
        }
    }
  }

  /** Replacing the state word in `{type}.{state}` changes only the state. */
  lemma KindStateStep(kind: Kind, s: State, s': State)
    ensures Text.Replace(KindText(kind) + "." + StateText(s), StateText(s), StateText(s'))
         == KindText(kind) + "." + StateText(s')
  {
    var pat, rep := StateText(s), StateText(s');
    StateWordShape(s);
    KindAvoidsStateWords(kind, s);
    Text.ReplaceSkipsSegment(KindText(kind), pat, pat, rep, Witness(s));
    Text.ReplaceWhole(pat, rep);
  }

  /** Replacing the state word in `simulated_events.{type}.{state}` changes
      only the state. */
  lemma InfixStateStep(kind: Kind, s: State, s': State)
    ensures Text.Replace("simulated_events" + "." + (KindText(kind) + "." + StateText(s)), StateText(s), StateText(s'))
         == "simulated_events" + "." + (KindText(kind) + "." + StateText(s'))
  {
    StateWordShape(s);
    InfixAvoidsStateWords(s);
    Text.ReplaceSkipsSegment("simulated_events", KindText(kind) + "." + StateText(s), StateText(s), StateText(s'), Witness(s));
    KindStateStep(kind, s, s');
  }

  /** Replacing the state word in a context type changes exactly the state
      segment. */
  lemma ContextTypeStep(env: Env, kind: Kind, s: State, s': State)
    ensures Text.Replace(ContextType(env, kind, s), StateText(s), StateText(s')) == ContextType(env, kind, s')
  {
    var pat, rep := StateText(s), StateText(s');
    var e, k := EnvText(env), KindText(kind);
    StateWordShape(s);
    EnvAvoidsStateWords(env, s);
    ContextTypeSegments(env, kind, s);
    ContextTypeSegments(env, kind, s');
    Text.ReplaceSkipsSegment(e, "simulated_events" + "." + (k + "." + pat), pat, rep, Witness(s));
    InfixStateStep(kind, s, s');
  }

  /** A context type read as its environment segment, a dot and the rest. */
  lemma ContextTypeSegments(env: Env, kind: Kind, s: State)
    ensures ContextType(env, kind, s)
         == EnvText(env) + "." + ("simulated_events" + "." + (KindText(kind) + "." + StateText(s)))
  {
  }
}

=== FILE: common.dfy ===
/** Shared value types: optional values, results with an error, and the JSON-like
    dictionaries the simulator builds and flattens. */
module Common {

  datatype Option<+T> = None | Some(value: T)

  /** The outcome of an operation that can fail; `:-` propagates an `Err`. */
  datatype Result<+T, +E> = Ok(value: T) | Err(error: E)
  {
    predicate IsFailure()
    {
      Err?
    }

    function PropagateFailure<U>(): Result<U, E>
      requires Err?
    {
      Err(error)
    }

    function Extract(): T
      requires Ok?
    {
      value
    }
  }

  /** A JSON-like value as held in the simulator's nested dictionaries.
      Identifiers drawn from the uuid supply are kept as `Uuid(n)` and clock
      readings as `Stamp(t)`; their textual rendering is not modelled.
      An object keeps its fields in insertion order, as a Python dict does. */
  datatype Json =
    | Null
    | Str(text: string)
    | Uuid(id: nat)
    | Stamp(time: nat)
    | Obj(fields: seq<(string, Json)>)

  type Fields = seq<(string, Json)>

  /** The keys of an object, in any order. */
  function KeysOf(fields: Fields): set<string>
  {
    set p | p in fields :: p.0
  }

  /** `fields[key]`: the value bound to `key`, or None when the key is absent. */
  function Lookup(fields: Fields, key: string): (r: Option<Json>)
    ensures r.None? <==> key !in KeysOf(fields)
    ensures r.Some? ==> (key, r.value) in fields
    decreases |fields|
  {
    if |fields| == 0 then None
    else if fields[0].0 == key then Some(fields[0].1)
    else
      assert forall i :: 0 < i < |fields| ==> fields[i] == fields[1..][i - 1];
      Lookup(fields[1..], key)
  }

  /** Appending a field adds exactly its key. */
  lemma KeysOfSnoc(fields: Fields, p: (string, Json))
    ensures KeysOf(fields + [p]) == KeysOf(fields) + {p.0}
  {
    var longer := fields + [p];
    forall q | q in longer ensures q in fields || q == p {
    }
    assert longer[|fields|] == p;
    forall q | q in fields ensures q in longer {
      var i :| 0 <= i < |fields| && fields[i] == q;
      assert longer[i] == q;
    }
  }

  /** A two-field dictionary has exactly the two keys. */
  lemma KeysOfPair(a: (string, Json), b: (string, Json))
    ensures KeysOf([a, b]) == {a.0, b.0}
  {
    assert [a, b] == [a] + [b];
    KeysOfSnoc([a], b);
    assert forall q :: q in [a] <==> q == a;
  }

  /** Looking up a key appended after all existing ones finds the appended value. */
  lemma {:induction false} LookupAppended(fields: Fields, key: string, v: Json)
    requires key !in KeysOf(fields)
    ensures Lookup(fields + [(key, v)], key) == Some(v)
    decreases |fields|
  {
    if |fields| > 0 {
      assert (fields + [(key, v)])[1..] == fields[1..] + [(key, v)];
      assert key !in KeysOf(fields[1..]) by {
        forall i | 0 <= i < |fields[1..]| ensures fields[1..][i].0 != key {
          assert fields[1..][i] == fields[i + 1];
        }
      }
      LookupAppended(fields[1..], key, v);
    }
  }

  /** Looking up the key of a field no earlier field shares finds that field. */
  lemma {:induction false} LookupAt(fields: Fields, i: nat)
    requires i < |fields|
    requires forall j :: 0 <= j < i ==> fields[j].0 != fields[i].0
    ensures Lookup(fields, fields[i].0) == Some(fields[i].1)
    decreases i
  {
    if i > 0 {
      assert fields[1..][i - 1] == fields[i];
      LookupAt(fields[1..], i - 1);
    }
  }
}

=== FILE: flatten.dfy ===
/** The flatteners: each projects a nested record into a one-level map whose
    keys carry the name of the layer they came from (`context_`, `subject_`,
    `content_`, `run_`), then back-fills the optional outcome and error
    columns with null. The variants differ only in how they name the run
    detail's error key and which column they back-fill. */
module Flatten {
  import opened Common
  import opened Vocabulary
  import opened Records

  /** A flattened record. Later writes to a key overwrite earlier ones, as
      assignments to a Python dict do. */
  type Flat = map<string, Json>

  /** Why flattening stops: a key the record must have is absent, a layer
      that must be a dictionary is not one, or the content names no run
      detail (so the run layer would be looked up under `None`). */
  datatype FlattenError = MissingKey(key: string) | NotAnObject(key: string) | NoRunKey

  /** How one layer's keys are renamed: keys in `skip` are not copied, keys
      in `verbatim` are copied under their own name, and every other key is
      copied under `prefix + key`. */
  datatype Rule = Rule(prefix: string, skip: set<string>, verbatim: set<string>)

  /** The name a layer's key is copied under, if it is copied. */
  function Rename(r: Rule, k: string): Option<string>
  {
    if k in r.skip then None else if k in r.verbatim then Some(k) else Some(r.prefix + k)
  }

  /** Prefixed keys never collide: two keys that are neither skipped nor
      kept verbatim are renamed alike only when they are the same key. */
  lemma RenameInjective(r: Rule, a: string, b: string)
    ensures a !in r.skip + r.verbatim && b !in r.skip + r.verbatim && Rename(r, a) == Rename(r, b) ==> a == b
  {
    if a !in r.skip + r.verbatim && b !in r.skip + r.verbatim && Rename(r, a) == Rename(r, b) {
      assert (r.prefix + a)[|r.prefix|..] == a;
      assert (r.prefix + b)[|r.prefix|..] == b;
    }
  }

  /** A key kept verbatim can collide with a prefixed one: under the run
      layer's rule that keeps `run_errors`, the keys `errors` and
      `run_errors` land in the same column; under the rule that prefixes
      every key, `errors` lands in `run_errors` and `run_errors` in
      `run_run_errors`. */
  lemma RenameCollision()
    ensures Rename(Rule("run_", {}, {"run_errors"}), "errors") == Rename(Rule("run_", {}, {"run_errors"}), "run_errors")
    ensures Rename(Rule("run_", {}, {}), "errors") == Some("run_errors")
    ensures Rename(Rule("run_", {}, {}), "run_errors") == Some("run_run_errors")
  {
    assert "run_" + "errors" == "run_errors";
    assert "run_" + "run_errors" == "run_run_errors";
  }

  /** Copies one field into the flattened map. */
  function Step(acc: Flat, f: (string, Json), r: Rule): Flat
  {
    match Rename(r, f.0)
    case Some(k) => acc[k := f.1]
    case None => acc
  }

  /** Copies a layer's fields, in order, into the flattened map. */
  function Put(acc: Flat, fields: Fields, r: Rule): (out: Flat)
    decreases |fields|
  {
    if |fields| == 0 then acc else Put(Step(acc, fields[0], r), fields[1..], r)
  }

  lemma PutCons(acc: Flat, f: (string, Json), rest: Fields, r: Rule)
    ensures Put(acc, [f] + rest, r) == Put(Step(acc, f, r), rest, r)
  {
    assert ([f] + rest)[1..] == rest;
  }

  /** Copying two runs of fields is copying their concatenation. */
  lemma {:induction false} PutAppend(acc: Flat, a: Fields, b: Fields, r: Rule)
    ensures Put(acc, a + b, r) == Put(Put(acc, a, r), b, r)
    decreases |a|
  {
    if |a| == 0 {
      assert a + b == b;
    } else {
      assert (a + b)[1..] == a[1..] + b;
      PutAppend(Step(acc, a[0], r), a[1..], b, r);
    }
  }

  /** Copying a layer keeps every key already present and adds exactly the
      renamed keys of the layer; a key the layer does not write keeps its
      value. */
  lemma {:induction false} PutKeys(acc: Flat, fields: Fields, r: Rule)
    ensures Put(acc, fields, r).Keys
         == acc.Keys + set f | f in fields && f.0 !in r.skip :: Rename(r, f.0).value
    ensures forall k :: k in acc && (forall f :: f in fields && Rename(r, f.0) == Some(k) ==> false) ==>
              Put(acc, fields, r)[k] == acc[k]
    decreases |fields|
  {
    if |fields| > 0 {
      PutKeys(Step(acc, fields[0], r), fields[1..], r);
      assert fields == [fields[0]] + fields[1..];
      forall f | f in fields ensures f == fields[0] || f in fields[1..] {
      }
    }
  }

  /** The two keys a content layer may name its run detail by. */
  const RunKinds: set<string> := {"taskRun", "pipelineRun"}

  const ContextRule := Rule("context_", {}, {})
  const SubjectRule := Rule("subject_", {"content"}, {})
  const ContentRule := Rule("content_", RunKinds, {})

  /** The run layer's rule; `verbatim` is the set of keys left unprefixed. */
  function RunRule(verbatim: set<string>): Rule
  {
    Rule("run_", {}, verbatim)
  }

  /** Indexing a dictionary: the value under `key`, or `MissingKey`. */
  function ValueAt(fields: Fields, key: string): (r: Result<Json, FlattenError>)
    ensures r.Ok? <==> key in KeysOf(fields)
    ensures r.Ok? ==> (key, r.value) in fields
    ensures r.Err? ==> r.error == MissingKey(key)
  {
    match Lookup(fields, key)
    case Some(v) => Ok(v)
    case None => Err(MissingKey(key))
  }

  /** Indexing a dictionary for a nested dictionary whose items are then
      iterated: its fields, `MissingKey` or `NotAnObject`. */
  function ObjectAt(fields: Fields, key: string): (r: Result<Fields, FlattenError>)
    ensures r.Ok? <==> Lookup(fields, key).Some? && Lookup(fields, key).value.Obj?
    ensures r.Ok? ==> (key, Obj(r.value)) in fields
    ensures r.Err? && key !in KeysOf(fields) ==> r.error == MissingKey(key)
    ensures r.Err? && key in KeysOf(fields) ==> r.error == NotAnObject(key)
  {
    match Lookup(fields, key)
    case Some(Obj(fs)) => Ok(fs)
    case Some(_) => Err(NotAnObject(key))
    case None => Err(MissingKey(key))
  }

  /** The run-detail key of a content layer: the last of its keys that is
      `taskRun` or `pipelineRun`, as the loop over the content's items
      leaves it; `NoRunKey` when there is none. */
  function RunKeyOf(fields: Fields): (r: Result<string, FlattenError>)
    ensures r.Err? <==> KeysOf(fields) * RunKinds == {}
    ensures r.Err? ==> r.error == NoRunKey
    ensures r.Ok? ==> r.value in RunKinds && r.value in KeysOf(fields)
    ensures r.Ok? ==> exists i :: 0 <= i < |fields| && fields[i].0 == r.value && LastRunKeyAt(fields, i)
    decreases |fields|
  {
    if |fields| == 0 then
      assert KeysOf(fields) == {};
      Err(NoRunKey)
    else
      var last := fields[|fields| - 1];
      var front := fields[..|fields| - 1];
      assert fields == front + [last];
      KeysOfSnoc(front, last);
      if last.0 in RunKinds then
        assert last.0 in KeysOf(fields) * RunKinds;
        assert LastRunKeyAt(fields, |fields| - 1);
        Ok(last.0)
      else
        assert KeysOf(fields) * RunKinds == KeysOf(front) * RunKinds;
        var r := RunKeyOf(front);
        if r.Ok? then
          var i :| 0 <= i < |front| && front[i].0 == r.value && LastRunKeyAt(front, i);
          assert fields[i] == front[i] && LastRunKeyAt(fields, i);
          r
        else r
  }

  /** No field after index `i` has a run-detail key. */
  predicate LastRunKeyAt(fields: Fields, i: nat)
  {
    forall j :: i < j < |fields| ==> fields[j].0 !in RunKinds
  }

  /** The null back-fill: when `run_outcome` is absent it is added with
      `errorsKey`, both null; then, when `run_errors` is still absent,
      `errorsKey` is set to null. */
  function BackFill(acc: Flat, errorsKey: string): (r: Flat)
    ensures r.Keys == acc.Keys
                      + (if "run_outcome" in acc then {} else {"run_outcome", errorsKey})
                      + (if "run_errors" in acc then {} else {errorsKey})
    ensures forall k :: k in acc && k != errorsKey ==> r[k] == acc[k]
    ensures forall k :: k in r && k !in acc ==> r[k] == Null
    ensures errorsKey in acc && "run_outcome" in acc && "run_errors" in acc ==> r[errorsKey] == acc[errorsKey]
  {
    var withOutcome := if "run_outcome" in acc then acc else acc["run_outcome" := Null][errorsKey := Null];
    if "run_errors" in withOutcome then withOutcome else withOutcome[errorsKey := Null]
  }

  /** The part the three flatteners share, from the context layer on:
      `acc` already holds the event id. */
  function FlattenLayers(acc: Flat, entry: Fields, verbatim: set<string>, errorsKey: string)
    : (r: Result<Flat, FlattenError>)
    ensures ObjectAt(entry, "context").Err? ==> r == Err(ObjectAt(entry, "context").error)
    ensures ObjectAt(entry, "context").Ok? && ObjectAt(entry, "subject").Err? ==> r == Err(ObjectAt(entry, "subject").error)
    ensures r.Ok? ==> acc.Keys <= r.value.Keys
    ensures r.Ok? ==> "run_outcome" in r.value && ("run_errors" in r.value || errorsKey in r.value)
  {
    var context :- ObjectAt(entry, "context");
    var subject :- ObjectAt(entry, "subject");
    var content :- ObjectAt(subject, "content");
    var kind :- RunKeyOf(content);
    var run :- ObjectAt(content, kind);
    var flat1 := Put(acc, context, ContextRule);
    var flat2 := Put(flat1, subject, SubjectRule);
    var flat3 := Put(flat2, content, ContentRule);
    var flat := Put(flat3, run, RunRule(verbatim));
    PutKeys(acc, context, ContextRule);
    PutKeys(flat1, subject, SubjectRule);
    PutKeys(flat2, content, ContentRule);
    PutKeys(flat3, run, RunRule(verbatim));
    Ok(BackFill(flat, errorsKey))
  }

  /** `flatten_event_entry` (the simulator's flattener): run keys get `run_`
      except `run_errors`, which is kept as it is. */
  function FlattenEventEntry(entry: Json): (r: Result<Flat, FlattenError>)
    ensures !entry.Obj? ==> r == Err(NotAnObject("event"))
    ensures entry.Obj? && "event_id" !in KeysOf(entry.fields) ==> r == Err(MissingKey("event_id"))
    ensures r.Ok? ==> "event_id" in r.value && "run_outcome" in r.value && "run_errors" in r.value
  {
    if !entry.Obj? then Err(NotAnObject("event"))
    else
      var id :- ValueAt(entry.fields, "event_id");
      FlattenLayers(map["event_id" := id], entry.fields, {"run_errors"}, "run_errors")
  }

  /** `flatten_event` of the Lambda handler: every run key gets `run_`. */
  function FlattenEvent(event: Json): (r: Result<Flat, FlattenError>)
    ensures !event.Obj? ==> r == Err(NotAnObject("event"))
    ensures event.Obj? && "event_id" !in KeysOf(event.fields) ==> r == Err(MissingKey("event_id"))
    ensures r.Ok? ==> "event_id" in r.value && "run_outcome" in r.value && "run_errors" in r.value
  {
    if !event.Obj? then Err(NotAnObject("event"))
    else
      var id :- ValueAt(event.fields, "event_id");
      FlattenLayers(map["event_id" := id], event.fields, {}, "run_errors")
  }

  // ---------------------------------------------------------------------
  // The flattened form of a built record, stated independently

  /** The outcome column: the outcome's text once finished, null before. */
  function OutcomeColumn(finish: Option<Finish>): Json
  {
    match finish
    case Some(f) => Str(OutcomeText(f.outcome))
    case None => Null
  }

  /** The error column: the error text when there is one, null otherwise. */
  function ErrorsColumn(finish: Option<Finish>): Json
  {
    match finish
    case Some(Finish(_, Some(msg))) => Str(msg)
    case _ => Null
  }

  /** The seventeen columns every flattened record has. */
  const FlatKeys: set<string> := {
    "event_id",
    "context_version", "context_id", "context_source", "context_type", "context_timestamp",
    "subject_id", "subject_type",
    "content_task", "content_url",
    "run_id", "run_source", "run_type", "run_pipelineName", "run_url", "run_outcome", "run_errors"}

  /** What `flatten_event_entry` should make of the record of `e` stored
      under `eventId`: one column per attribute. */
  function FlatRecord(e: Event, eventId: nat): (flat: Flat)
    ensures flat.Keys == FlatKeys
  {
    map[
      "event_id" := Uuid(eventId),
      "context_version" := Str(VersionText(e.version)),
      "context_id" := Uuid(e.contextId),
      "context_source" := Str(e.source),
      "context_type" := Str(e.contextType),
      "context_timestamp" := Stamp(e.timestamp),
      "subject_id" := Uuid(e.subjectId),
      "subject_type" := Str(KindText(e.kind)),
      "content_task" := Str(TaskText(e.task)),
      "content_url" := Str(e.url),
      "run_id" := Uuid(e.run.id),
      "run_source" := Str(e.run.source),
      "run_type" := Str(KindText(e.run.kind)),
      "run_pipelineName" := Str(PipelineText(e.run.pipeline)),
      "run_url" := Str(e.run.url),
      "run_outcome" := OutcomeColumn(e.run.finish),
      "run_errors" := ErrorsColumn(e.run.finish)]
  }

  // ---------------------------------------------------------------------
  // Flattening a built record, layer by layer

  lemma ContextLayer(acc: Flat, e: Event)
    ensures Put(acc, ContextFields(e), ContextRule)
         == acc["context_version" := Str(VersionText(e.version))]["context_id" := Uuid(e.contextId)]
               ["context_source" := Str(e.source)]["context_type" := Str(e.contextType)]
               ["context_timestamp" := Stamp(e.timestamp)]
  {
    var r := ContextRule;
    var fs := ContextFields(e);
    assert "context_" + "version" == "context_version";
    assert "context_" + "id" == "context_id";
    assert "context_" + "source" == "context_source";
    assert "context_" + "type" == "context_type";
    assert "context_" + "timestamp" == "context_timestamp";
    var a1 := Step(acc, fs[0], r);
    var a2 := Step(a1, fs[1], r);
    var a3 := Step(a2, fs[2], r);
    var a4 := Step(a3, fs[3], r);
    var a5 := Step(a4, fs[4], r);
    PutCons(acc, fs[0], fs[1..], r);
    PutCons(a1, fs[1], fs[2..], r);
    PutCons(a2, fs[2], fs[3..], r);
    PutCons(a3, fs[3], fs[4..], r);
    PutCons(a4, fs[4], fs[5..], r);
    assert fs == [fs[0]] + fs[1..];
    assert fs[1..] == [fs[1]] + fs[2..];
    assert fs[2..] == [fs[2]] + fs[3..];
    assert fs[3..] == [fs[3]] + fs[4..];
    assert fs[4..] == [fs[4]] + fs[5..];
    assert fs[5..] == [];
  }

  lemma SubjectLayer(acc: Flat, e: Event, errorKey: string)
    ensures Put(acc, SubjectFields(e, errorKey), SubjectRule)
         == acc["subject_id" := Uuid(e.subjectId)]["subject_type" := Str(KindText(e.kind))]
  {
    var r := SubjectRule;
    var fs := SubjectFields(e, errorKey);
    assert "subject_" + "id" == "subject_id";
    assert "subject_" + "type" == "subject_type";
    var a1 := Step(acc, fs[0], r);
    var a2 := Step(a1, fs[1], r);
    PutCons(acc, fs[0], fs[1..], r);
    PutCons(a1, fs[1], fs[2..], r);
    PutCons(a2, fs[2], fs[3..], r);
    assert fs == [fs[0]] + fs[1..];
    assert fs[1..] == [fs[1]] + fs[2..];
    assert fs[2..] == [fs[2]] + fs[3..];
    assert fs[3..] == [];
  }

  lemma ContentLayer(acc: Flat, e: Event, errorKey: string)
    ensures Put(acc, ContentFields(e, errorKey), ContentRule)
         == acc["content_task" := Str(TaskText(e.task))]["content_url" := Str(e.url)]
  {
    var r := ContentRule;
    var fs := ContentFields(e, errorKey);
    assert "content_" + "task" == "content_task";
    assert "content_" + "url" == "content_url";
    assert KindText(e.kind) in RunKinds;
    var a1 := Step(acc, fs[0], r);
    var a2 := Step(a1, fs[1], r);
    PutCons(acc, fs[0], fs[1..], r);
    PutCons(a1, fs[1], fs[2..], r);
    PutCons(a2, fs[2], fs[3..], r);
    assert fs == [fs[0]] + fs[1..];
    assert fs[1..] == [fs[1]] + fs[2..];
    assert fs[2..] == [fs[2]] + fs[3..];
    assert fs[3..] == [];
  }

  /** The run columns a run detail's fields flatten to, `errorName` being
      the column its error text lands in. */
  function RunColumns(acc: Flat, rd: RunDetail, errorName: string): Flat
  {
    var base := acc["run_id" := Uuid(rd.id)]["run_source" := Str(rd.source)]["run_type" := Str(KindText(rd.kind))]
                   ["run_pipelineName" := Str(PipelineText(rd.pipeline))]["run_url" := Str(rd.url)];
    match rd.finish
    case None => base
    case Some(Finish(o, None)) => base["run_outcome" := Str(OutcomeText(o))]
    case Some(Finish(o, Some(msg))) => base["run_outcome" := Str(OutcomeText(o))][errorName := Str(msg)]
  }

  lemma RunBaseLayer(acc: Flat, rd: RunDetail, verbatim: set<string>)
    requires verbatim <= {"run_errors"}
    ensures Put(acc, RunBaseFields(rd), RunRule(verbatim))
         == acc["run_id" := Uuid(rd.id)]["run_source" := Str(rd.source)]["run_type" := Str(KindText(rd.kind))]
               ["run_pipelineName" := Str(PipelineText(rd.pipeline))]["run_url" := Str(rd.url)]
  {
    var r := RunRule(verbatim);
    var fs := RunBaseFields(rd);
    assert "run_" + "id" == "run_id";
    assert "run_" + "source" == "run_source";
    assert "run_" + "type" == "run_type";
    assert "run_" + "pipelineName" == "run_pipelineName";
    assert "run_" + "url" == "run_url";
    var a1 := Step(acc, fs[0], r);
    var a2 := Step(a1, fs[1], r);
    var a3 := Step(a2, fs[2], r);
    var a4 := Step(a3, fs[3], r);
    PutCons(acc, fs[0], fs[1..], r);
    PutCons(a1, fs[1], fs[2..], r);
    PutCons(a2, fs[2], fs[3..], r);
    PutCons(a3, fs[3], fs[4..], r);
    PutCons(Step(a3, fs[3], r), fs[4], fs[5..], r);
    assert fs == [fs[0]] + fs[1..];
    assert fs[1..] == [fs[1]] + fs[2..];
    assert fs[2..] == [fs[2]] + fs[3..];
    assert fs[3..] == [fs[3]] + fs[4..];
    assert fs[4..] == [fs[4]] + fs[5..];
    assert fs[5..] == [];
  }

  lemma RunLayer(acc: Flat, rd: RunDetail, errorKey: string, verbatim: set<string>)
    requires verbatim <= {"run_errors"}
    ensures Put(acc, RunFields(rd, errorKey), RunRule(verbatim))
         == RunColumns(acc, rd, if errorKey in verbatim then errorKey else "run_" + errorKey)
  {
    var r := RunRule(verbatim);
    var base := RunBaseFields(rd);
    var a5 := Put(acc, base, r);
    RunBaseLayer(acc, rd, verbatim);
    assert "run_" + "outcome" == "run_outcome";
    match rd.finish
    case None =>
    case Some(Finish(o, None)) =>
      var outcome := ("outcome", Str(OutcomeText(o)));
      PutAppend(acc, base, [outcome], r);
      PutCons(a5, outcome, [], r);
    case Some(Finish(o, Some(msg))) =>
      var outcome := ("outcome", Str(OutcomeText(o)));
      var error := (errorKey, Str(msg));
      PutAppend(acc, base, [outcome, error], r);
      PutCons(a5, outcome, [error], r);
      PutCons(Step(a5, outcome, r), error, [], r);
      assert [outcome, error] == [outcome] + [error];
  }

  /** A record's context and subject are found where the flatteners look,
      whatever follows them in the entry. */
  lemma RecordLayers(e: Event, errorKey: string, tail: Fields)
    ensures ObjectAt(EntryFields(e, errorKey) + tail, "context") == Ok(ContextFields(e))
    ensures ObjectAt(EntryFields(e, errorKey) + tail, "subject") == Ok(SubjectFields(e, errorKey))
  {
    var entry := EntryFields(e, errorKey) + tail;
    LookupAt(entry, 0);
    assert "context"[0] != "subject"[0];
    LookupAt(entry, 1);
  }

  /** A subject's content is found where the flatteners look. */
  lemma ContentLookup(e: Event, errorKey: string)
    ensures ObjectAt(SubjectFields(e, errorKey), "content") == Ok(ContentFields(e, errorKey))
  {
    var subject := SubjectFields(e, errorKey);
    assert "id"[0] != "content"[0] && "type"[0] != "content"[0];
    LookupAt(subject, 2);
  }

  /** A content's run detail is found under the event type. */
  lemma RunLookup(e: Event, errorKey: string)
    ensures RunKeyOf(ContentFields(e, errorKey)) == Ok(KindText(e.kind))
    ensures ObjectAt(ContentFields(e, errorKey), KindText(e.kind)) == Ok(RunFields(e.run, errorKey))
  {
    var content := ContentFields(e, errorKey);
    var kind := KindText(e.kind);
    assert "task" != kind && "url" != kind;
    LookupAt(content, 2);
  }

  /** A subject's content and run detail are found where the flatteners
      look, the run detail under the event type. */
  lemma SubjectLayers(e: Event, errorKey: string)
    ensures ObjectAt(SubjectFields(e, errorKey), "content") == Ok(ContentFields(e, errorKey))
    ensures RunKeyOf(ContentFields(e, errorKey)) == Ok(KindText(e.kind))
    ensures ObjectAt(ContentFields(e, errorKey), KindText(e.kind)) == Ok(RunFields(e.run, errorKey))
  {
    ContentLookup(e, errorKey);
    RunLookup(e, errorKey);
  }

  /** The ten columns flattened before the run layer. */
  function FrontColumns(e: Event, eventId: nat): (front: Flat)
    ensures "run_outcome" !in front && "run_errors" !in front && "run_run_errors" !in front
  {
    map[
      "event_id" := Uuid(eventId),
      "context_version" := Str(VersionText(e.version)),
      "context_id" := Uuid(e.contextId),
      "context_source" := Str(e.source),
      "context_type" := Str(e.contextType),
      "context_timestamp" := Stamp(e.timestamp),
      "subject_id" := Uuid(e.subjectId),
      "subject_type" := Str(KindText(e.kind)),
      "content_task" := Str(TaskText(e.task)),
      "content_url" := Str(e.url)]
  }

  /** The context, subject and content layers of a record flatten to its
      front columns. */
  lemma FrontLayers(e: Event, errorKey: string, eventId: nat)
    ensures Put(Put(Put(map["event_id" := Uuid(eventId)], ContextFields(e), ContextRule),
                    SubjectFields(e, errorKey), SubjectRule), ContentFields(e, errorKey), ContentRule)
         == FrontColumns(e, eventId)
  {
    var acc0 := map["event_id" := Uuid(eventId)];
    ContextLayer(acc0, e);
    var acc1 := Put(acc0, ContextFields(e), ContextRule);
    SubjectLayer(acc1, e, errorKey);
    var acc2 := Put(acc1, SubjectFields(e, errorKey), SubjectRule);
    ContentLayer(acc2, e, errorKey);
  }

  /** Back-filling the run columns of a record built with `run_errors`
      gives one outcome and one error column, null when absent. */
  lemma BackFillColumns(acc: Flat, rd: RunDetail)
    requires "run_outcome" !in acc && "run_errors" !in acc
    ensures BackFill(RunColumns(acc, rd, "run_errors"), "run_errors")
         == acc["run_id" := Uuid(rd.id)]["run_source" := Str(rd.source)]["run_type" := Str(KindText(rd.kind))]
               ["run_pipelineName" := Str(PipelineText(rd.pipeline))]["run_url" := Str(rd.url)]
               ["run_outcome" := OutcomeColumn(rd.finish)]["run_errors" := ErrorsColumn(rd.finish)]
  {
    var base := acc["run_id" := Uuid(rd.id)]["run_source" := Str(rd.source)]["run_type" := Str(KindText(rd.kind))]
                   ["run_pipelineName" := Str(PipelineText(rd.pipeline))]["run_url" := Str(rd.url)];
    assert "run_outcome" !in base && "run_errors" !in base;
  }

  /** The simulator's flattener turns every stored record into its
      seventeen columns, whatever the event's state and outcome. */
  lemma FlattenRecord(e: Event, eventId: nat)
    ensures FlattenEventEntry(Record(e, eventId)) == Ok(FlatRecord(e, eventId))
  {
    var tail := [("event_id", Uuid(eventId))];
    assert Record(e, eventId) == Obj(EntryFields(e, "run_errors") + tail);
    RecordLayers(e, "run_errors", tail);
    SubjectLayers(e, "run_errors");
    FrontLayers(e, "run_errors", eventId);
    RunLayer(FrontColumns(e, eventId), e.run, "run_errors", {"run_errors"});
    BackFillColumns(FrontColumns(e, eventId), e.run);
  }

  /** Every record the simulator stores flattens to the same seventeen
      columns, whatever its kind, state and outcome. */
  lemma FlattenedSchema(e: Event, eventId: nat)
    ensures FlattenEventEntry(Record(e, eventId)).Ok?
    ensures FlattenEventEntry(Record(e, eventId)).value.Keys == FlatKeys
  {
    FlattenRecord(e, eventId);
  }

  /** For a coherent event the outcome column is null exactly before
      `finished`, and the error column holds text exactly for a finished
      run that did not succeed. */
  lemma FlattenedOutcome(e: Event, eventId: nat)
    requires Coherent(e)
    ensures var flat := FlatRecord(e, eventId);
      && (flat["run_outcome"] == Null <==> e.state != Finished)
      && (flat["run_errors"] != Null <==> e.state == Finished && e.run.finish.value.outcome != Success)
  {
  }

  /** The ways a dictionary that is not a stored record fails to flatten:
      no `event_id`, no `context`, or a content layer that names no run
      detail. Both entry-level flatteners fail alike. */
  lemma FlattenRejects(entry: Fields)
    ensures "event_id" !in KeysOf(entry) ==>
              && FlattenEventEntry(Obj(entry)) == Err(MissingKey("event_id"))
              && FlattenEvent(Obj(entry)) == Err(MissingKey("event_id"))
    ensures "event_id" in KeysOf(entry) && "context" !in KeysOf(entry) ==>
              && FlattenEventEntry(Obj(entry)) == Err(MissingKey("context"))
              && FlattenEvent(Obj(entry)) == Err(MissingKey("context"))
    ensures "event_id" in KeysOf(entry) && ObjectAt(entry, "context").Ok? && ObjectAt(entry, "subject").Ok?
            && ObjectAt(ObjectAt(entry, "subject").value, "content").Ok?
            && KeysOf(ObjectAt(ObjectAt(entry, "subject").value, "content").value) * RunKinds == {} ==>
              && FlattenEventEntry(Obj(entry)) == Err(NoRunKey)
              && FlattenEvent(Obj(entry)) == Err(NoRunKey)
  {
  }

  // ---------------------------------------------------------------------
  // The Lambda flattener on the simulator's records

  /** What the Lambda flattener makes of the record of `e` stored under
      `eventId`: the run's error text moves to `run_run_errors` and
      `run_errors` is null. */
  function LambdaColumns(e: Event, eventId: nat): Flat
  {
    var rd := e.run;
    var base := FrontColumns(e, eventId)
                  ["run_id" := Uuid(rd.id)]["run_source" := Str(rd.source)]["run_type" := Str(KindText(rd.kind))]
                  ["run_pipelineName" := Str(PipelineText(rd.pipeline))]["run_url" := Str(rd.url)];
    match rd.finish
    case None => base["run_outcome" := Null]["run_errors" := Null]
    case Some(Finish(o, None)) => base["run_outcome" := Str(OutcomeText(o))]["run_errors" := Null]
    case Some(Finish(o, Some(msg))) =>
      base["run_outcome" := Str(OutcomeText(o))]["run_run_errors" := Str(msg)]["run_errors" := Null]
  }

  lemma LambdaBackFill(e: Event, eventId: nat)
    ensures BackFill(RunColumns(FrontColumns(e, eventId), e.run, "run_run_errors"), "run_errors")
         == LambdaColumns(e, eventId)
  {
    var rd := e.run;
    var base := FrontColumns(e, eventId)
                  ["run_id" := Uuid(rd.id)]["run_source" := Str(rd.source)]["run_type" := Str(KindText(rd.kind))]
                  ["run_pipelineName" := Str(PipelineText(rd.pipeline))]["run_url" := Str(rd.url)];
    assert "run_outcome" !in base && "run_errors" !in base;
    assert "run_run_errors" != "run_errors";
  }

  lemma ExtraErrorColumn()
    ensures "run_run_errors" !in {"run_id", "run_source", "run_type", "run_pipelineName", "run_url", "run_outcome", "run_errors"}
  {
  }

  lemma PrefixedErrorKey()
    ensures "run_" + "run_errors" == "run_run_errors"
  {
  }

  /** The Lambda flattener renames the stored `run_errors` key to
      `run_run_errors`, then back-fills `run_errors` with null. */
  lemma LambdaFlattenRecord(e: Event, eventId: nat)
    ensures FlattenEvent(Record(e, eventId)) == Ok(LambdaColumns(e, eventId))
  {
    var tail := [("event_id", Uuid(eventId))];
    assert Record(e, eventId) == Obj(EntryFields(e, "run_errors") + tail);
    RecordLayers(e, "run_errors", tail);
    SubjectLayers(e, "run_errors");
    FrontLayers(e, "run_errors", eventId);
    PrefixedErrorKey();
    RunLayer(FrontColumns(e, eventId), e.run, "run_errors", {});
    LambdaBackFill(e, eventId);
  }

  /** On the simulator's records the Lambda flattener's `run_errors` column
      is always null; an error text lands in an extra `run_run_errors`
      column, present exactly when the run has one. */
  lemma LambdaErrorColumns(e: Event, eventId: nat)
    ensures var flat := LambdaColumns(e, eventId);
      && "run_errors" in flat && flat["run_errors"] == Null
      && ("run_run_errors" in flat <==> ErrorsColumn(e.run.finish) != Null)
      && ("run_run_errors" in flat ==> flat["run_run_errors"] == ErrorsColumn(e.run.finish))
  {
    ExtraErrorColumn();
  }

  /** Hence the Lambda flattener's columns differ between a record with an
      error text and one without. */
  lemma LambdaKeysVary(e1: Event, id1: nat, e2: Event, id2: nat)
    requires ErrorsColumn(e1.run.finish) != Null && ErrorsColumn(e2.run.finish) == Null
    ensures FlattenEvent(Record(e1, id1)).Ok? && FlattenEvent(Record(e2, id2)).Ok?
    ensures FlattenEvent(Record(e1, id1)).value.Keys != FlattenEvent(Record(e2, id2)).value.Keys
  {
    LambdaFlattenRecord(e1, id1);
    LambdaFlattenRecord(e2, id2);
    LambdaErrorColumns(e1, id1);
    LambdaErrorColumns(e2, id2);
  }
}

=== FILE: legacy.dfy ===
/** The older builders at the repository root and the flattener that
    consumes them: a new event may start `finished`, a pipeline run detail
    records an error text only for a `failure` (under `errors`), and the
    flattener back-fills a column named `errors`. */
module Legacy {
  import opened Common
  import opened Vocabulary
  import opened Records
  import opened RunDetails
  import opened Flatten

  /** The run-detail host of the older builder, spelled as it is there. */
  const LegacyHost: string := "https://api.example_stystem.com/namespace/"

  /** The states an older `pipelineRun` may start in. */
  type PipelineStart = s: State | s == Queued || s == Started || s == Finished witness Queued

  /** The states an older `taskRun` may start in. */
  type TaskStart = s: State | s == Started || s == Finished witness Started

  /** The categorical draws of an older new event; the start state is drawn
      from a support that depends on the event type. */
  datatype LegacyDraws = LegacyDraws(
    user: User,
    env: Env,
    kind: Kind,
    name: NameIndex,
    pipelineStart: PipelineStart,
    taskStart: TaskStart,
    version: Version,
    task: Task,
    clock: nat)

  /** What an older pipeline run records when finished: the outcome, and an
      error text only for a `failure`. The message drawn for an `error` is
      kept on the object but never written to the entry. */
  function LegacyConclude(state: State, d: RunDraws): (f: Option<Finish>)
    ensures f.Some? <==> state == Finished
    ensures f.Some? ==> f.value.outcome == d.outcome
    ensures f.Some? ==> (f.value.errors.Some? <==> d.outcome == Failure)
    ensures f.Some? && f.value.errors.Some? ==> f.value.errors.value == UnitTestsFailed
  {
    if state != Finished then None
    else if d.outcome == Failure then Some(Finish(Failure, Some(UnitTestsFailed)))
    else Some(Finish(d.outcome, None))
  }

  /** The older `PipelineRun`: a fresh id, the event's source, a drawn
      pipeline under the older host, and the older finishing rules. */
  function LegacyPipelineRun(source: string, state: State, next: nat, d: RunDraws): (r: (RunDetail, nat))
    ensures r.0.kind == PipelineRun && r.0.source == source
    ensures r.0.id == next && r.1 == next + 1
    ensures r.0.pipeline == d.pipeline && r.0.url == RunUrl(LegacyHost, d.pipeline)
    ensures r.0.finish == LegacyConclude(state, d)
    ensures KeysOf(RunFields(r.0, "errors"))
         == RunBaseKeys
            + (if state == Finished then {"outcome"} else {})
            + (if state == Finished && d.outcome == Failure then {"errors"} else {})
  {
    (RunDetail(next, source, PipelineRun, d.pipeline, RunUrl(LegacyHost, d.pipeline), LegacyConclude(state, d)),
     next + 1)
  }

  /** An older pipeline run that finishes with `error` carries no error
      text, so its outcome rules are not met; the current builder records
      the drawn message. */
  lemma LegacyErrorDropped(source: string, next: nat, d: RunDraws)
    requires d.outcome == Error
    ensures var run := LegacyPipelineRun(source, Finished, next, d).0;
      && run.finish == Some(Finish(Error, None))
      && "errors" !in KeysOf(RunFields(run, "errors"))
      && !Concluded(run.finish.value)
    ensures PipelineRunOf(source, Finished, next, d).0.finish == Some(Finish(Error, Some(MessageText(d.message))))
  {
  }

  /** The older `CDEvent.__init__`: the subject id is drawn before the
      context id, the start state may already be `finished`, and the run
      detail comes from the older `PipelineRun` or, for a task run, from
      `taskRun` (the older task-run builder is not part of this model). */
  function LegacyNewEvent(d: LegacyDraws, rd: RunDraws, taskRun: RunDetail, next: nat): (r: (Event, nat))
    ensures r.0.kind == PipelineRun ==> r.0.state == d.pipelineStart
    ensures r.0.kind == TaskRun ==> r.0.state == d.taskStart
    ensures r.0.state != Unknown
    ensures r.0.kind == TaskRun ==> r.0.state != Queued
    ensures && r.0.user == d.user && r.0.env == d.env && r.0.kind == d.kind && r.0.name == d.name
            && r.0.version == d.version && r.0.task == d.task && r.0.timestamp == d.clock
    ensures r.0.source == Source(d.env, d.user)
    ensures r.0.contextType == ContextType(d.env, d.kind, r.0.state)
    ensures r.0.url == SubjectUrl(d.user, d.env, d.kind, d.name)
    ensures r.0.subjectId == next && r.0.contextId == next + 1
    ensures r.0.kind == PipelineRun ==>
              && r.0.run.kind == PipelineRun && r.0.run.source == r.0.source && r.0.run.id == next + 2
              && r.0.run.url == RunUrl(LegacyHost, r.0.run.pipeline)
              && r.0.run.pipeline == rd.pipeline && r.0.run.finish == LegacyConclude(r.0.state, rd)
  {
    var state: State := if d.kind == PipelineRun then d.pipelineStart else d.taskStart;
    var source := Source(d.env, d.user);
    var (run, next') :=
      match d.kind
      case PipelineRun => LegacyPipelineRun(source, state, next + 2, rd)
      case TaskRun => (taskRun, next + 2);
    var e := Event(
      d.user, d.env, d.kind, d.name, state,
      d.version, next + 1, source, ContextType(d.env, d.kind, state), d.clock,
      next, d.task, SubjectUrl(d.user, d.env, d.kind, d.name),
      run);
    (e, next')
  }

  /** An older new event has exactly one run-detail key in its content,
      named by its type, whichever builder made the detail. */
  lemma LegacyContentKey(d: LegacyDraws, rd: RunDraws, taskRun: RunDetail, next: nat)
    ensures var e := LegacyNewEvent(d, rd, taskRun, next).0;
      KeysOf(ContentFields(e, "errors")) * RunKinds == {KindText(d.kind)}
  {
    var e := LegacyNewEvent(d, rd, taskRun, next).0;
    assert KeysOf(ContentFields(e, "errors")) * {"taskRun", "pipelineRun"} == {KindText(e.kind)};
  }

  // ---------------------------------------------------------------------
  // The flattener of the processed-events script

  /** `flatten_event` of the processed-events script: it flattens an event's
      entry, takes a freshly drawn `eventId` for the `event_id` column,
      prefixes every run key with `run_`, and back-fills `errors`. */
  function FlattenProcessed(entry: Json, eventId: nat): (r: Result<Flat, FlattenError>)
    ensures !entry.Obj? ==> r == Err(NotAnObject("event"))
    ensures entry.Obj? && "context" !in KeysOf(entry.fields) ==> r == Err(MissingKey("context"))
    ensures r.Ok? ==> "event_id" in r.value && "run_outcome" in r.value
    ensures r.Ok? ==> "errors" in r.value || "run_errors" in r.value
  {
    if !entry.Obj? then Err(NotAnObject("event"))
    else FlattenLayers(map["event_id" := Uuid(eventId)], entry.fields, {}, "errors")
  }

  /** The same flattener back-filling `run_errors`, the column the prefixed
      `errors` key lands in. */
  function FlattenProcessedFixed(entry: Json, eventId: nat): (r: Result<Flat, FlattenError>)
    ensures !entry.Obj? ==> r == Err(NotAnObject("event"))
    ensures r.Ok? ==> "event_id" in r.value && "run_outcome" in r.value && "run_errors" in r.value
  {
    if !entry.Obj? then Err(NotAnObject("event"))
    else FlattenLayers(map["event_id" := Uuid(eventId)], entry.fields, {}, "run_errors")
  }

  /** What the processed-events flattener makes of the entry of `e`: the
      error text, if any, sits in `run_errors`, and otherwise a null
      `errors` column is added instead. */
  function ProcessedColumns(e: Event, eventId: nat): Flat
  {
    var rd := e.run;
    var base := FrontColumns(e, eventId)
                  ["run_id" := Uuid(rd.id)]["run_source" := Str(rd.source)]["run_type" := Str(KindText(rd.kind))]
                  ["run_pipelineName" := Str(PipelineText(rd.pipeline))]["run_url" := Str(rd.url)];
    match rd.finish
    case None => base["run_outcome" := Null]["errors" := Null]
    case Some(Finish(o, None)) => base["run_outcome" := Str(OutcomeText(o))]["errors" := Null]
    case Some(Finish(o, Some(msg))) => base["run_outcome" := Str(OutcomeText(o))]["run_errors" := Str(msg)]
  }

  lemma PrefixedLegacyErrorKey()
    ensures "run_" + "errors" == "run_errors"
    ensures "errors" !in {"run_id", "run_source", "run_type", "run_pipelineName", "run_url", "run_outcome", "run_errors"}
    ensures "errors" !in {"event_id", "context_version", "context_id", "context_source", "context_type",
                          "context_timestamp", "subject_id", "subject_type", "content_task", "content_url"}
  {
  }

  lemma ProcessedBackFill(e: Event, eventId: nat)
    ensures BackFill(RunColumns(FrontColumns(e, eventId), e.run, "run_errors"), "errors")
         == ProcessedColumns(e, eventId)
  {
    var rd := e.run;
    var base := FrontColumns(e, eventId)
                  ["run_id" := Uuid(rd.id)]["run_source" := Str(rd.source)]["run_type" := Str(KindText(rd.kind))]
                  ["run_pipelineName" := Str(PipelineText(rd.pipeline))]["run_url" := Str(rd.url)];
    assert "run_outcome" !in base && "run_errors" !in base;
  }

  /** The processed-events flattener on an older entry: the entry's
      `errors` key becomes `run_errors`, and `errors` is back-filled. */
  lemma ProcessedFlattenRecord(e: Event, eventId: nat)
    ensures FlattenProcessed(Obj(EntryFields(e, "errors")), eventId) == Ok(ProcessedColumns(e, eventId))
  {
    var entry := EntryFields(e, "errors");
    assert entry + [] == entry;
    RecordLayers(e, "errors", []);
    SubjectLayers(e, "errors");
    FrontLayers(e, "errors", eventId);
    PrefixedLegacyErrorKey();
    RunLayer(FrontColumns(e, eventId), e.run, "errors", {});
    ProcessedBackFill(e, eventId);
  }

  /** A record with an error text gets a `run_errors` column and no
      `errors` column; every other record gets `errors` and no
      `run_errors`. */
  lemma ProcessedErrorColumns(e: Event, eventId: nat)
    ensures var flat := ProcessedColumns(e, eventId);
      && ("run_errors" in flat <==> ErrorsColumn(e.run.finish) != Null)
      && ("errors" in flat <==> ErrorsColumn(e.run.finish) == Null)
      && ("errors" in flat ==> flat["errors"] == Null)
  {
    PrefixedLegacyErrorKey();
  }

  /** Hence the processed-events flattener's columns differ between a
      record with an error text and one without. */
  lemma ProcessedKeysVary(e1: Event, id1: nat, e2: Event, id2: nat)
    requires ErrorsColumn(e1.run.finish) != Null && ErrorsColumn(e2.run.finish) == Null
    ensures FlattenProcessed(Obj(EntryFields(e1, "errors")), id1).Ok?
    ensures FlattenProcessed(Obj(EntryFields(e2, "errors")), id2).Ok?
    ensures FlattenProcessed(Obj(EntryFields(e1, "errors")), id1).value.Keys
         != FlattenProcessed(Obj(EntryFields(e2, "errors")), id2).value.Keys
  {
    ProcessedFlattenRecord(e1, id1);
    ProcessedFlattenRecord(e2, id2);
    ProcessedErrorColumns(e1, id1);
    ProcessedErrorColumns(e2, id2);
  }

  /** An older pipeline run that fails and one that errs flatten to
      different columns. */
  lemma LegacyFailureStandsOut(source: string, next: nat, d1: RunDraws, d2: RunDraws)
    requires d1.outcome == Failure && d2.outcome == Error
    ensures ErrorsColumn(LegacyPipelineRun(source, Finished, next, d1).0.finish) != Null
    ensures ErrorsColumn(LegacyPipelineRun(source, Finished, next, d2).0.finish) == Null
  {
  }

  /** Back-filling `run_errors` instead gives every older record the same
      seventeen columns as the simulator's flattener. */
  lemma ProcessedFixedRecord(e: Event, eventId: nat)
    ensures FlattenProcessedFixed(Obj(EntryFields(e, "errors")), eventId) == Ok(FlatRecord(e, eventId))
    ensures FlattenProcessedFixed(Obj(EntryFields(e, "errors")), eventId).value.Keys == FlatKeys
  {
    var entry := EntryFields(e, "errors");
    assert entry + [] == entry;
    RecordLayers(e, "errors", []);
    SubjectLayers(e, "errors");
    FrontLayers(e, "errors", eventId);
    PrefixedLegacyErrorKey();
    RunLayer(FrontColumns(e, eventId), e.run, "errors", {});
    BackFillColumns(FrontColumns(e, eventId), e.run);
  }
}

=== FILE: lifecycle.dfy ===
/** The lifecycle driver: `create_event_lifecycle` builds one event and its
    successors up to `finished`, tagging each record with a fresh `event_id`;
    `create_events` runs it a given number of times. Random draws come from
    the stream `dice` (read from position `roll` on), uuids from the counter
    `next`. */
module Lifecycle {
  import opened Common
  import opened Vocabulary
  import opened Records
  import opened RunDetails
  import opened CDEvent

  /** The draws of one record's construction: a new event reads `event` and
      `run`, a successor reads `run` and `runTime`. */
  datatype Draws = Draws(event: EventDraws, run: RunDraws, runTime: nat)

  /** The attributes a lifecycle step copies unchanged. */
  predicate SameIdentity(a: Event, b: Event)
  {
    && a.user == b.user && a.env == b.env && a.kind == b.kind && a.name == b.name
    && a.version == b.version && a.contextId == b.contextId && a.source == b.source
    && a.subjectId == b.subjectId && a.task == b.task && a.url == b.url
  }

  /** Whether the ids are strictly increasing and all lie in `[lo, hi)`. */
  predicate FreshRange(ids: seq<nat>, lo: nat, hi: nat)
  {
    && (forall i :: 0 <= i < |ids| ==> lo <= ids[i] < hi)
    && (forall i, j :: 0 <= i < j < |ids| ==> ids[i] < ids[j])
  }

  /** Drawing one more id at or past the bound keeps a run of ids fresh. */
  lemma FreshExtend(ids: seq<nat>, lo: nat, hi: nat, id: nat, hi': nat)
    requires FreshRange(ids, lo, hi) && lo <= hi <= id < hi'
    ensures FreshRange(ids + [id], lo, hi')
  {
    var longer := ids + [id];
    assert forall i :: 0 <= i < |ids| ==> longer[i] == ids[i];
  }

  /** The stored form of a lifecycle: each record's entry tagged with its id. */
  function RecordsOf(lifecycle: seq<Event>, eventIds: seq<nat>): (rs: seq<Json>)
    requires |lifecycle| == |eventIds|
    ensures |rs| == |lifecycle|
  {
    seq(|lifecycle|, i requires 0 <= i < |lifecycle| => Record(lifecycle[i], eventIds[i]))
  }

  /** Each record of a lifecycle carries the event id listed beside it. */
  lemma RecordsTagged(lifecycle: seq<Event>, eventIds: seq<nat>)
    requires |lifecycle| == |eventIds|
    ensures Tagged(RecordsOf(lifecycle, eventIds), eventIds)
  {
    var rs := RecordsOf(lifecycle, eventIds);
    forall i | 0 <= i < |rs|
      ensures rs[i].Obj? && Lookup(rs[i].fields, "event_id") == Some(Uuid(eventIds[i]))
    {
      assert rs[i] == Record(lifecycle[i], eventIds[i]);
    }
  }

  /** A run state a driven lifecycle can be in. */
  predicate Driven(s: State)
  {
    s == Queued || s == Started || s == Finished
  }

  /** The state facts a lifecycle loop keeps: every record is one transition
      further along than the one before it. */
  predicate Advancing(lifecycle: seq<Event>)
  {
    forall i :: 0 <= i < |lifecycle| ==>
      Driven(lifecycle[i].state) && StepsLeft(lifecycle[i].state) + i == StepsLeft(lifecycle[0].state)
  }

  /** A lifecycle that advances one step at a time and ends in `finished`
      has one record per remaining step plus one, and no state repeats. */
  lemma AdvancingEnds(lifecycle: seq<Event>)
    requires |lifecycle| >= 1 && Advancing(lifecycle)
    requires lifecycle[|lifecycle| - 1].state == Finished
    ensures |lifecycle| == StepsLeft(lifecycle[0].state) + 1
    ensures forall i :: 0 <= i < |lifecycle| - 1 ==> lifecycle[i].state != Finished
    ensures forall i, j :: 0 <= i < j < |lifecycle| ==> lifecycle[i].state != lifecycle[j].state
  {
    forall i, j | 0 <= i < j < |lifecycle| ensures lifecycle[i].state != lifecycle[j].state {
      assert StepsLeft(lifecycle[i].state) != StepsLeft(lifecycle[j].state);
    }
  }

  /** Every record copies the first one's identity and is coherent. */
  predicate Alike(lifecycle: seq<Event>)
  {
    forall i :: 0 <= i < |lifecycle| ==> SameIdentity(lifecycle[0], lifecycle[i]) && Coherent(lifecycle[i])
  }

  /** Every record is stamped the drawn run time after the one before it. */
  predicate Paced(lifecycle: seq<Event>, dice: nat -> Draws, roll: nat)
  {
    forall i :: 0 < i < |lifecycle| ==>
      lifecycle[i].timestamp == lifecycle[i - 1].timestamp + dice(roll + i).runTime
  }

  /** Whether two run details have the same id, pipeline name and url. */
  predicate SameRun(a: RunDetail, b: RunDetail)
  {
    a.id == b.id && a.pipeline == b.pipeline && a.url == b.url
  }

  /** Every record's run detail concludes with that record's own draws; a
      pipeline run's id and pipeline name are drawn afresh for every record,
      and a task run's id, pipeline name and url are the first record's
      throughout. */
  predicate Carried(lifecycle: seq<Event>, dice: nat -> Draws, roll: nat)
    requires |lifecycle| >= 1
  {
    && (forall i :: 0 <= i < |lifecycle| ==> lifecycle[i].run.finish == Conclude(lifecycle[i].state, dice(roll + i).run))
    && (lifecycle[0].kind == PipelineRun ==>
          && (forall i :: 0 <= i < |lifecycle| ==> lifecycle[i].run.pipeline == dice(roll + i).run.pipeline)
          && (forall i, j :: 0 <= i < j < |lifecycle| ==> lifecycle[i].run.id < lifecycle[j].run.id))
    && (lifecycle[0].kind == TaskRun ==> forall i :: 0 <= i < |lifecycle| ==> SameRun(lifecycle[0].run, lifecycle[i].run))
  }

  /** The facts a lifecycle keeps as it grows: each record is one transition
      past the one before it, copies its identity, is coherent, is stamped
      the drawn run time later, and concludes and carries its run detail as
      its kind demands. */
  predicate Chained(lifecycle: seq<Event>, dice: nat -> Draws, roll: nat)
  {
    && |lifecycle| >= 1 && Advancing(lifecycle) && Alike(lifecycle) && Paced(lifecycle, dice, roll)
    && Carried(lifecycle, dice, roll)
  }

  /** A successor one transition further along extends an advancing lifecycle. */
  lemma AdvancingExtend(lifecycle: seq<Event>, successor: Event)
    requires |lifecycle| >= 1 && Advancing(lifecycle)
    requires Driven(successor.state)
    requires StepsLeft(successor.state) + 1 == StepsLeft(lifecycle[|lifecycle| - 1].state)
    ensures Advancing(lifecycle + [successor])
  {
    var longer := lifecycle + [successor];
    assert forall i :: 0 <= i < |lifecycle| ==> longer[i] == lifecycle[i];
  }

  /** A coherent successor with its predecessor's identity keeps a lifecycle alike. */
  lemma AlikeExtend(lifecycle: seq<Event>, successor: Event)
    requires |lifecycle| >= 1 && Alike(lifecycle)
    requires SameIdentity(lifecycle[|lifecycle| - 1], successor) && Coherent(successor)
    ensures Alike(lifecycle + [successor])
  {
    var longer := lifecycle + [successor];
    forall i | 0 <= i < |longer|
      ensures SameIdentity(longer[0], longer[i]) && Coherent(longer[i])
    {
      if i < |lifecycle| {
        assert longer[i] == lifecycle[i];
      } else {
        assert SameIdentity(lifecycle[0], lifecycle[|lifecycle| - 1]);
      }
    }
  }

  /** A successor stamped the next drawn run time later keeps a lifecycle paced. */
  lemma PacedExtend(lifecycle: seq<Event>, dice: nat -> Draws, roll: nat, successor: Event)
    requires |lifecycle| >= 1 && Paced(lifecycle, dice, roll)
    requires successor.timestamp == lifecycle[|lifecycle| - 1].timestamp + dice(roll + |lifecycle|).runTime
    ensures Paced(lifecycle + [successor], dice, roll)
  {
    var longer := lifecycle + [successor];
    assert forall i :: 0 <= i < |lifecycle| ==> longer[i] == lifecycle[i];
  }

  /** A successor that concludes with the next draws, redraws a pipeline
      run's pipeline name and keeps a task run's detail keeps a lifecycle
      carried. */
  lemma CarriedExtend(lifecycle: seq<Event>, dice: nat -> Draws, roll: nat, successor: Event)
    requires |lifecycle| >= 1 && Carried(lifecycle, dice, roll)
    requires successor.run.finish == Conclude(successor.state, dice(roll + |lifecycle|).run)
    requires lifecycle[0].kind == PipelineRun ==> successor.run.pipeline == dice(roll + |lifecycle|).run.pipeline
    requires lifecycle[0].kind == PipelineRun ==> lifecycle[|lifecycle| - 1].run.id < successor.run.id
    requires lifecycle[0].kind == TaskRun ==> SameRun(lifecycle[|lifecycle| - 1].run, successor.run)
    ensures Carried(lifecycle + [successor], dice, roll)
  {
    var longer := lifecycle + [successor];
    assert forall i :: 0 <= i < |lifecycle| ==> longer[i] == lifecycle[i];
    if lifecycle[0].kind == TaskRun {
      assert SameRun(lifecycle[0].run, lifecycle[|lifecycle| - 1].run);
    }
  }

  /** The uuids a lifecycle's records were built with (subject, context and
      run-detail ids) lie in `[lo, hi)`, and none of them is an event id. */
  predicate FreshEntities(lifecycle: seq<Event>, eventIds: seq<nat>, lo: nat, hi: nat)
  {
    && (forall j :: 0 <= j < |lifecycle| ==>
          && lo <= lifecycle[j].subjectId < hi && lo <= lifecycle[j].contextId < hi
          && lo <= lifecycle[j].run.id < hi)
    && (forall i, j :: 0 <= i < |eventIds| && 0 <= j < |lifecycle| ==>
          && eventIds[i] != lifecycle[j].subjectId && eventIds[i] != lifecycle[j].contextId
          && eventIds[i] != lifecycle[j].run.id)
  }

  /** A successor that keeps the subject and context ids, and whose run
      detail's id is no event id, keeps the entity ids apart from the event
      ids when the next event id is drawn at the bound. */
  lemma FreshEntitiesExtend(lifecycle: seq<Event>, eventIds: seq<nat>, lo: nat, next: nat, successor: Event, hi: nat)
    requires |lifecycle| >= 1 && FreshEntities(lifecycle, eventIds, lo, next) && next < hi
    requires successor.subjectId == lifecycle[0].subjectId && successor.contextId == lifecycle[0].contextId
    requires lo <= successor.run.id < hi && successor.run.id != next
    requires forall i :: 0 <= i < |eventIds| ==> eventIds[i] != successor.run.id
    ensures FreshEntities(lifecycle + [successor], eventIds + [next], lo, hi)
  {
    var longer, longerIds := lifecycle + [successor], eventIds + [next];
    assert forall j :: 0 <= j < |lifecycle| ==> longer[j] == lifecycle[j];
    assert forall i :: 0 <= i < |eventIds| ==> longerIds[i] == eventIds[i];
  }

  /** A coherent, driven event that concludes with the first draws starts a
      chained lifecycle on its own. */
  lemma SingleChained(e: Event, dice: nat -> Draws, roll: nat)
    requires Coherent(e) && Driven(e.state) && e.run.finish == Conclude(e.state, dice(roll).run)
    requires e.kind == PipelineRun ==> e.run.pipeline == dice(roll).run.pipeline
    ensures Chained([e], dice, roll)
  {
    assert SameIdentity(e, e) && SameRun(e.run, e.run);
  }

  /** The first record of a lifecycle: an event id is drawn, then the new
      event. */
  method BeginLifecycle(dice: nat -> Draws, roll: nat, next: nat)
    returns (lifecycle: seq<Event>, eventIds: seq<nat>, next': nat)
    ensures lifecycle == [NewEvent(dice(roll).event, dice(roll).run, next + 1).0]
    ensures Chained(lifecycle, dice, roll)
    ensures eventIds == [next] && FreshRange(eventIds, next, next') && next < next'
    ensures FreshEntities(lifecycle, eventIds, next, next')
  {
    var first := NewEvent(dice(roll).event, dice(roll).run, next + 1);
    SingleChained(first.0, dice, roll);
    lifecycle := [first.0];
    eventIds := [next];
    next' := first.1;
  }

  /** One more record: an event id is drawn, then the successor of the last
      record, with the next draws of the stream. */
  method ExtendLifecycle(lifecycle: seq<Event>, eventIds: seq<nat>, dice: nat -> Draws, roll: nat, lo: nat, next: nat)
    returns (lifecycle': seq<Event>, eventIds': seq<nat>, next': nat)
    requires Chained(lifecycle, dice, roll) && lifecycle[|lifecycle| - 1].state != Finished
    requires |eventIds| == |lifecycle| && FreshRange(eventIds, lo, next) && lo < next
    requires FreshEntities(lifecycle, eventIds, lo, next)
    ensures lifecycle' == lifecycle + [Successor(lifecycle[|lifecycle| - 1], dice(roll + |lifecycle|).runTime,
                                                 dice(roll + |lifecycle|).run, next + 1).0]
    ensures Chained(lifecycle', dice, roll)
    ensures StepsLeft(lifecycle'[|lifecycle'| - 1].state) + 1 == StepsLeft(lifecycle[|lifecycle| - 1].state)
    ensures |eventIds'| == |lifecycle'| && FreshRange(eventIds', lo, next') && lo < next'
    ensures FreshEntities(lifecycle', eventIds', lo, next')
  {
    var current := lifecycle[|lifecycle| - 1];
    var step := dice(roll + |lifecycle|);
    var successor := Successor(current, step.runTime, step.run, next + 1);
    NextApproachesFinished(current.state);
    FreshExtend(eventIds, lo, next, next, successor.1);
    AdvancingExtend(lifecycle, successor.0);
    AlikeExtend(lifecycle, successor.0);
    PacedExtend(lifecycle, dice, roll, successor.0);
    assert SameIdentity(lifecycle[0], current);
    CarriedExtend(lifecycle, dice, roll, successor.0);
    if current.kind == TaskRun {
      assert SameRun(lifecycle[0].run, current.run);
    }
    FreshEntitiesExtend(lifecycle, eventIds, lo, next, successor.0, successor.1);
    lifecycle' := lifecycle + [successor.0];
    eventIds' := eventIds + [next];
    next' := successor.1;
  }

  /** `create_event_lifecycle`: draws an event id and a new event, then keeps
      drawing an event id and the successor until a record reaches
      `finished`. The lifecycle's records, tagged with their ids, are added
      to `events` and the ids to `ids`; `lifecycle` exposes the events the
      records were built from. */
  method CreateEventLifecycle(events: seq<Json>, ids: seq<nat>, dice: nat -> Draws, roll: nat, next: nat)
    returns (events': seq<Json>, ids': seq<nat>, lifecycle: seq<Event>, roll': nat, next': nat)
    ensures Chained(lifecycle, dice, roll)
    ensures lifecycle[0] == NewEvent(dice(roll).event, dice(roll).run, next + 1).0
    ensures lifecycle[|lifecycle| - 1].state == Finished
    ensures |lifecycle| == 2 || |lifecycle| == 3
    ensures |lifecycle| == 3 <==> lifecycle[0].kind == PipelineRun && lifecycle[0].state == Queued
    ensures forall i :: 0 <= i < |lifecycle| - 1 ==> lifecycle[i].state != Finished
    ensures forall i, j :: 0 <= i < j < |lifecycle| ==> lifecycle[i].state != lifecycle[j].state
    ensures |ids'| == |ids| + |lifecycle| && ids'[..|ids|] == ids
    ensures FreshRange(ids'[|ids|..], next, next')
    ensures FreshEntities(lifecycle, ids'[|ids|..], next, next')
    ensures events' == events + RecordsOf(lifecycle, ids'[|ids|..])
    ensures roll' == roll + |lifecycle|
  {
    var newIds: seq<nat>;
    var n: nat;
    lifecycle, newIds, n := BeginLifecycle(dice, roll, next);
    var first := lifecycle[0];
    while lifecycle[|lifecycle| - 1].state != Finished
      invariant 1 <= |lifecycle| <= 3 && lifecycle[0] == first
      invariant Chained(lifecycle, dice, roll)
      invariant |newIds| == |lifecycle| && FreshRange(newIds, next, n) && next < n
      invariant FreshEntities(lifecycle, newIds, next, n)
      decreases StepsLeft(lifecycle[|lifecycle| - 1].state)
    {
      lifecycle, newIds, n := ExtendLifecycle(lifecycle, newIds, dice, roll, next, n);
    }
    AdvancingEnds(lifecycle);
    ids' := ids + newIds;
    assert ids'[|ids|..] == newIds;
    events' := events + RecordsOf(lifecycle, newIds);
    roll' := roll + |lifecycle|;
    next' := n;
  }

  /** Two fresh runs drawn one after the other make one fresh run. */
  lemma FreshConcat(a: seq<nat>, lo: nat, mid: nat, b: seq<nat>, hi: nat)
    requires FreshRange(a, lo, mid) && FreshRange(b, mid, hi) && lo <= mid <= hi
    ensures FreshRange(a + b, lo, hi)
  {
    var ab := a + b;
    assert forall i :: 0 <= i < |a| ==> ab[i] == a[i];
    assert forall i :: |a| <= i < |ab| ==> ab[i] == b[i - |a|];
  }

  /** Each stored record carries the event id listed beside it. */
  predicate Tagged(events: seq<Json>, ids: seq<nat>)
  {
    && |events| == |ids|
    && forall i :: 0 <= i < |events| ==>
         events[i].Obj? && Lookup(events[i].fields, "event_id") == Some(Uuid(ids[i]))
  }

  /** Appending a tagged lifecycle keeps the record and id lists aligned. */
  lemma TaggedAppend(events: seq<Json>, ids: seq<nat>, lifecycle: seq<Event>, eventIds: seq<nat>)
    requires Tagged(events, ids) && |lifecycle| == |eventIds|
    ensures Tagged(events + RecordsOf(lifecycle, eventIds), ids + eventIds)
  {
    var records := RecordsOf(lifecycle, eventIds);
    RecordsTagged(lifecycle, eventIds);
    var all, allIds := events + records, ids + eventIds;
    forall i | 0 <= i < |all|
      ensures all[i].Obj? && Lookup(all[i].fields, "event_id") == Some(Uuid(allIds[i]))
    {
      if i < |events| {
        assert all[i] == events[i] && allIds[i] == ids[i];
      } else {
        assert all[i] == records[i - |events|] && allIds[i] == eventIds[i - |events|];
      }
    }
  }

  /** A sequence is its prefix followed by the rest. */
  lemma PrefixSplit(s: seq<nat>, prefix: seq<nat>)
    requires |prefix| <= |s| && s[..|prefix|] == prefix
    ensures s == prefix + s[|prefix|..]
  {
  }

  /** Storing two lifecycles one after the other stores their concatenation. */
  lemma RecordsOfAppend(a: seq<Event>, aIds: seq<nat>, b: seq<Event>, bIds: seq<nat>)
    requires |a| == |aIds| && |b| == |bIds|
    ensures RecordsOf(a, aIds) + RecordsOf(b, bIds) == RecordsOf(a + b, aIds + bIds)
  {
    var joined, whole := RecordsOf(a, aIds) + RecordsOf(b, bIds), RecordsOf(a + b, aIds + bIds);
    forall i | 0 <= i < |whole| ensures joined[i] == whole[i] {
      if i < |a| {
        assert (a + b)[i] == a[i] && (aIds + bIds)[i] == aIds[i];
      } else {
        assert (a + b)[i] == b[i - |a|] && (aIds + bIds)[i] == bIds[i - |a|];
      }
    }
  }

  /** The stored records are those of `built`, under `ids`, and every event
      they were built from is coherent. */
  predicate Built(events: seq<Json>, ids: seq<nat>, built: seq<Event>)
  {
    && |built| == |ids| && events == RecordsOf(built, ids)
    && forall i :: 0 <= i < |built| ==> Coherent(built[i])
  }

  /** Storing an alike lifecycle after the built records keeps them built. */
  lemma BuiltAppend(events: seq<Json>, ids: seq<nat>, built: seq<Event>, lifecycle: seq<Event>, newIds: seq<nat>)
    requires Built(events, ids, built) && |lifecycle| == |newIds| && Alike(lifecycle)
    ensures Built(events + RecordsOf(lifecycle, newIds), ids + newIds, built + lifecycle)
  {
    RecordsOfAppend(built, ids, lifecycle, newIds);
    var all := built + lifecycle;
    forall i | 0 <= i < |all| ensures Coherent(all[i]) {
      if i < |built| {
        assert all[i] == built[i];
      } else {
        assert all[i] == lifecycle[i - |built|];
      }
    }
  }

  /** `create_events`: runs `count` lifecycles one after the other. The
      ghost `built` exposes the events the stored records were built from. */
  method CreateEvents(count: nat, dice: nat -> Draws, roll: nat, next: nat)
    returns (events: seq<Json>, ids: seq<nat>, roll': nat, next': nat, ghost built: seq<Event>)
    ensures Tagged(events, ids)
    ensures 2 * count <= |ids| <= 3 * count
    ensures FreshRange(ids, next, next')
    ensures |built| == |ids| && events == RecordsOf(built, ids)
    ensures forall i :: 0 <= i < |built| ==> Coherent(built[i])
  {
    events, ids, roll', next' := [], [], roll, next;
    built := [];
    var made := 0;
    while made < count
      invariant made <= count
      invariant Tagged(events, ids) && 2 * made <= |ids| <= 3 * made
      invariant FreshRange(ids, next, next') && next <= next'
      invariant Built(events, ids, built)
    {
      var events2, ids2, lifecycle, roll2, next2 := CreateEventLifecycle(events, ids, dice, roll', next');
      PrefixSplit(ids2, ids);
      TaggedAppend(events, ids, lifecycle, ids2[|ids|..]);
      FreshConcat(ids, next, next', ids2[|ids|..], next2);
      BuiltAppend(events, ids, built, lifecycle, ids2[|ids|..]);
      events, ids, roll', next', built := events2, ids2, roll2, next2, built + lifecycle;
      made := made + 1;
    }
  }
}

=== FILE: records.dfy ===
/** The nested CD event record: the typed form the builders produce, and the
    dictionary form (`entry`) it is stored and flattened as. */
module Records {
  import opened Common
  import opened Vocabulary

  /** What a run detail gains when its event is `finished`: the outcome, and
      an error text when the outcome calls for one. */
  datatype Finish = Finish(outcome: Outcome, errors: Option<string>)

  /** A `taskRun` or `pipelineRun` entry of the subject's content. */
  datatype RunDetail = RunDetail(
    id: nat,
    source: string,
    kind: Kind,
    pipeline: Pipeline,
    url: string,
    finish: Option<Finish>)

  /** A CD event: the attributes the context, subject and content are built
      from, with the run detail it owns. */
  datatype Event = Event(
    user: User,
    env: Env,
    kind: Kind,
    name: NameIndex,
    state: State,
    version: Version,
    contextId: nat,
    source: string,
    contextType: string,
    timestamp: nat,
    subjectId: nat,
    task: Task,
    url: string,
    run: RunDetail)

  /** `source`: `/{environment}/{user}/`. */
  function Source(env: Env, user: User): string
  {
    "/" + EnvText(env) + "/" + UserText(user) + "/"
  }

  /** The context `type`: `{environment}.simulated_events.{event_type}.{state}`. */
  function ContextType(env: Env, kind: Kind, state: State): string
  {
    EnvText(env) + "." + "simulated_events" + "." + KindText(kind) + "." + StateText(state)
  }

  /** The subject content `url`:
      `/apis/{user}.{environment}/veta/namespaces/default/{event_type}s/{event_name}`. */
  function SubjectUrl(user: User, env: Env, kind: Kind, name: NameIndex): string
  {
    "/apis/" + UserText(user) + "." + EnvText(env) + "/veta/namespaces/default/"
    + KindText(kind) + "s/" + EventName(kind, name)
  }

  /** A run detail's `url`, for a given host prefix. */
  function RunUrl(host: string, p: Pipeline): string
  {
    host + PipelineText(p)
  }

  const Host: string := "https://api.example_system.com/namespace/"

  /** The outcome rules of a finished run: an `error` carries one of the four
      messages, a `failure` carries "Unit tests failed", a `success` nothing. */
  predicate Concluded(f: Finish)
  {
    match f.outcome
    case Success => f.errors.None?
    case Error => f.errors.Some? && f.errors.value in ErrorMessages
    case Failure => f.errors == Some(UnitTestsFailed)
  }

  /** The shape every record built by the current builders has: the derived
      strings agree with the attributes, the run detail belongs to the event,
      and it is concluded exactly when the event is finished. */
  predicate Coherent(e: Event)
  {
    && e.source == Source(e.env, e.user)
    && e.contextType == ContextType(e.env, e.kind, e.state)
    && e.url == SubjectUrl(e.user, e.env, e.kind, e.name)
    && e.run.kind == e.kind
    && e.run.source == e.source
    && e.run.url == RunUrl(Host, e.run.pipeline)
    && (e.run.finish.Some? <==> e.state == Finished)
    && (e.run.finish.Some? ==> Concluded(e.run.finish.value))
  }

  /** The keys every run detail has. */
  const RunBaseKeys: set<string> := {"id", "source", "type", "pipelineName", "url"}

  /** The five fields every run detail starts with. */
  function RunBaseFields(r: RunDetail): Fields
  {
    [("id", Uuid(r.id)), ("source", Str(r.source)), ("type", Str(KindText(r.kind))),
     ("pipelineName", Str(PipelineText(r.pipeline))), ("url", Str(r.url))]
  }

  /** The run detail as a dictionary; `errorKey` names the error text's key. */
  function RunFields(r: RunDetail, errorKey: string): (fs: Fields)
    ensures KeysOf(fs) == RunBaseKeys
                          + (if r.finish.Some? then {"outcome"} else {})
                          + (if r.finish.Some? && r.finish.value.errors.Some? then {errorKey} else {})
  {
    var base := RunBaseFields(r);
    match r.finish
    case None => base
    case Some(Finish(o, None)) => base + [("outcome", Str(OutcomeText(o)))]
    case Some(Finish(o, Some(msg))) => base + [("outcome", Str(OutcomeText(o))), (errorKey, Str(msg))]
  }

  /** The context: version, id, source, type and timestamp. */
  function ContextFields(e: Event): Fields
  {
    [("version", Str(VersionText(e.version))), ("id", Uuid(e.contextId)), ("source", Str(e.source)),
     ("type", Str(e.contextType)), ("timestamp", Stamp(e.timestamp))]
  }

  /** The subject's content: `task`, `url`, and the run detail under the key
      named by the event type. */
  function ContentFields(e: Event, errorKey: string): (fs: Fields)
    ensures KeysOf(fs) == {"task", "url", KindText(e.kind)}
    ensures KeysOf(fs) * {"taskRun", "pipelineRun"} == {KindText(e.kind)}
  {
    [("task", Str(TaskText(e.task))), ("url", Str(e.url)), (KindText(e.kind), Obj(RunFields(e.run, errorKey)))]
  }

  /** The subject: its id, its type and the content. */
  function SubjectFields(e: Event, errorKey: string): Fields
  {
    [("id", Uuid(e.subjectId)), ("type", Str(KindText(e.kind))), ("content", Obj(ContentFields(e, errorKey)))]
  }

  /** The context has exactly its five keys. */
  lemma ContextKeys(e: Event)
    ensures KeysOf(ContextFields(e)) == {"version", "id", "source", "type", "timestamp"}
  {
  }

  /** The subject has exactly `id`, `type` and `content`; the run detail
      sits inside the content, not beside it. */
  lemma SubjectKeys(e: Event, errorKey: string)
    ensures KeysOf(SubjectFields(e, errorKey)) == {"id", "type", "content"}
  {
  }

  /** The event's `entry` dictionary. */
  function EntryFields(e: Event, errorKey: string): (fs: Fields)
    ensures KeysOf(fs) == {"context", "subject"}
  {
    var context, subject := ("context", Obj(ContextFields(e))), ("subject", Obj(SubjectFields(e, errorKey)));
    KeysOfPair(context, subject);
    [context, subject]
  }

  /** The entry tagged with its `event_id`, as the lifecycle driver stores it. */
  function Record(e: Event, eventId: nat): (j: Json)
    ensures j.Obj? && Lookup(j.fields, "event_id") == Some(Uuid(eventId))
  {
    var fs := EntryFields(e, "run_errors");
    LookupAppended(fs, "event_id", Uuid(eventId));
    Obj(fs + [("event_id", Uuid(eventId))])
  }
}

=== FILE: run_details.dfy ===
/** The run-detail builders of the current code: `TaskRun` and `PipelineRun`.
    Random draws arrive as a `RunDraws` value and uuids come from a counter
    `next`; each builder returns the detail with the advanced counter. */
module RunDetails {
  import opened Common
  import opened Vocabulary
  import opened Records

  /** The draws one run-detail construction may consult: the pipeline name
      drawn on entry, the second pipeline name a fresh task run draws, the
      outcome and the error message. */
  datatype RunDraws = RunDraws(pipeline: Pipeline, redraw: Pipeline, outcome: Outcome, message: ErrorMessage)

  /** What both builders add on `finished`: the drawn outcome, with the
      drawn message for `error`, "Unit tests failed" for `failure`, and no
      error text for `success`. */
  function Conclude(state: State, d: RunDraws): (f: Option<Finish>)
    ensures f.Some? <==> state == Finished
    ensures f.Some? ==> f.value.outcome == d.outcome && Concluded(f.value)
    ensures f.Some? && d.outcome == Error ==> f.value.errors == Some(MessageText(d.message))
  {
    if state == Finished then
      var errors := match d.outcome
        case Error => Some(MessageText(d.message))
        case Failure => Some(UnitTestsFailed)
        case Success => None;
      MessageInVocabulary(d.message);
      Some(Finish(d.outcome, errors))
    else None
  }

  /** `TaskRun(cdevent)`: `prior` is the event's previous task run, if any.
      A first id and pipeline name are always drawn and then overwritten; a
      fresh detail draws a second id and pipeline name, a carried-forward one
      keeps the prior id, pipeline name and url. */
  function TaskRunOf(source: string, state: State, prior: Option<RunDetail>, next: nat, d: RunDraws)
    : (r: (RunDetail, nat))
    ensures r.0.kind == TaskRun && r.0.source == source
    ensures prior.None? ==> && r.0.id == next + 1 && r.1 == next + 2
                            && r.0.pipeline == d.redraw && r.0.url == RunUrl(Host, d.redraw)
    ensures prior.Some? ==> && r.0.id == prior.value.id && r.1 == next + 1
                            && r.0.pipeline == prior.value.pipeline && r.0.url == prior.value.url
    ensures r.0.finish.Some? <==> state == Finished
    ensures r.0.finish.Some? ==> r.0.finish.value.outcome == d.outcome && Concluded(r.0.finish.value)
    ensures r.0.finish == Conclude(state, d)
  {
    var discardedId := next;
    var discardedPipeline := d.pipeline;
    match prior
    case None =>
      (RunDetail(next + 1, source, TaskRun, d.redraw, RunUrl(Host, d.redraw), Conclude(state, d)), next + 2)
    case Some(p) =>
      (RunDetail(p.id, source, TaskRun, p.pipeline, p.url, Conclude(state, d)), next + 1)
  }

  /** The id and pipeline name drawn on entry to `TaskRun` never reach the
      result. */
  lemma TaskRunDiscardsFirstDraw(source: string, state: State, prior: Option<RunDetail>, next: nat,
                                 d: RunDraws, other: Pipeline)
    ensures TaskRunOf(source, state, prior, next, d).0 == TaskRunOf(source, state, prior, next, d.(pipeline := other)).0
  {
  }

  /** `PipelineRun(cdevent)`: always a fresh id and a freshly drawn pipeline
      name; a previous pipeline run is never consulted. */
  function PipelineRunOf(source: string, state: State, next: nat, d: RunDraws): (r: (RunDetail, nat))
    ensures r.0.kind == PipelineRun && r.0.source == source
    ensures r.0.id == next && r.1 == next + 1
    ensures r.0.pipeline == d.pipeline && r.0.url == RunUrl(Host, d.pipeline)
    ensures r.0.finish.Some? <==> state == Finished
    ensures r.0.finish.Some? ==> r.0.finish.value.outcome == d.outcome && Concluded(r.0.finish.value)
    ensures r.0.finish == Conclude(state, d)
  {
    (RunDetail(next, source, PipelineRun, d.pipeline, RunUrl(Host, d.pipeline), Conclude(state, d)), next + 1)
  }

  /** The run detail's dictionary: exactly the five base keys before
      `finished`; then `outcome`, and `run_errors` exactly for an `error` or
      `failure` outcome, holding one of the four messages or "Unit tests
      failed" respectively. */
  lemma RunEntryKeys(r: RunDetail)
    requires r.finish.Some? ==> Concluded(r.finish.value)
    ensures r.finish.None? ==> KeysOf(RunFields(r, "run_errors")) == RunBaseKeys
    ensures r.finish.Some? && r.finish.value.outcome == Success ==>
              KeysOf(RunFields(r, "run_errors")) == RunBaseKeys + {"outcome"}
    ensures r.finish.Some? && r.finish.value.outcome != Success ==>
              KeysOf(RunFields(r, "run_errors")) == RunBaseKeys + {"outcome", "run_errors"}
    ensures r.finish.Some? ==> Lookup(RunFields(r, "run_errors"), "outcome") == Some(Str(OutcomeText(r.finish.value.outcome)))
  {
  }
}

=== FILE: text.dfy ===
/** Python's `str.replace`, the one string operation a lifecycle step applies
    to an existing record. */
module Text {

  /** Whether `pat` occurs in `s` starting at index `i`. */
  predicate MatchAt(s: string, pat: string, i: nat)
  {
    i + |pat| <= |s| && s[i..i + |pat|] == pat
  }

  /** Whether `pat` occurs nowhere in `s`. */
  predicate NoMatch(s: string, pat: string)
  {
    forall i: nat :: i <= |s| ==> !MatchAt(s, pat, i)
  }

  /** A string without `pat` has a tail without it. */
  lemma NoMatchTail(s: string, pat: string)
    requires |s| > 0
    ensures NoMatch(s, pat) ==> NoMatch(s[1..], pat)
  {
    if NoMatch(s, pat) {
      forall i: nat | i <= |s[1..]| ensures !MatchAt(s[1..], pat, i) {
        assert !MatchAt(s, pat, i + 1);
        if i + |pat| <= |s[1..]| {
          assert s[1..][i..i + |pat|] == s[i + 1..i + 1 + |pat|];
        }
      }
    }
  }

  /** `s.replace(pat, rep)`: scanning left to right, every non-overlapping
      occurrence of `pat` is replaced by `rep`; an empty `pat` occurs before
      every character and at the end. Replacing a pattern by itself leaves
      the string as it was. */
  function Replace(s: string, pat: string, rep: string): (r: string)
    ensures rep == pat ==> r == s
    decreases |s|
  {
    if |pat| == 0 then
      if |s| == 0 then rep
      else
        assert [s[0]] + s[1..] == s;
        rep + [s[0]] + Replace(s[1..], pat, rep)
    else if |s| < |pat| then s
    else if s[..|pat|] == pat then
      assert pat + s[|pat|..] == s;
      rep + Replace(s[|pat|..], pat, rep)
    else
      assert [s[0]] + s[1..] == s;
      [s[0]] + Replace(s[1..], pat, rep)
  }

  /** A pattern that does not occur leaves the string as it was. */
  lemma {:induction false} ReplaceAbsent(s: string, pat: string, rep: string)
    requires NoMatch(s, pat)
    ensures Replace(s, pat, rep) == s
    decreases |s|
  {
    assert !MatchAt(s, pat, 0);
    if |s| >= |pat| {
      assert s[..|pat|] != pat;
      NoMatchTail(s, pat);
      ReplaceAbsent(s[1..], pat, rep);
      assert [s[0]] + s[1..] == s;
    }
  }

  /** Replacing a whole string by itself yields the replacement. */
  lemma ReplaceWhole(pat: string, rep: string)
    ensures Replace(pat, pat, rep) == rep
  {
    assert pat[..|pat|] == pat;
    assert pat[|pat|..] == [];
    assert rep + [] == rep;
  }

  /** `pat` does not start a dot-free segment `w` followed by a dot when `pat`
      is longer than `w`, or lacks a character `c` of `pat`, and `pat` has no dot. */
  lemma NoMatchAtSegmentStart(w: string, rest: string, pat: string, c: char)
    requires |pat| > 0 && '.' !in pat
    requires |w| < |pat| || (c in pat && c !in w)
    requires |w + "." + rest| >= |pat|
    ensures (w + "." + rest)[..|pat|] != pat
  {
    var s := w + "." + rest;
    if |pat| <= |w| {
      var j :| 0 <= j < |pat| && pat[j] == c;
      assert s[..|pat|][j] == w[j];
      assert w[j] in w;
    } else {
      assert s[..|pat|][|w|] == '.';
      assert pat[|w|] in pat;
    }
  }

  /** Where `pat` does not start `s`, the replacement keeps the first
      character and carries on with the rest. */
  lemma ReplaceKeepsHead(s: string, pat: string, rep: string)
    requires |pat| > 0 && |s| > 0 && (|s| < |pat| || s[..|pat|] != pat)
    ensures Replace(s, pat, rep) == [s[0]] + Replace(s[1..], pat, rep)
  {
    if |s| < |pat| {
      assert Replace(s[1..], pat, rep) == s[1..];
      assert [s[0]] + s[1..] == s;
    }
  }

  /** A dot-free segment `w` in which `pat` cannot occur (it is shorter than
      `pat`, or lacks a character `c` of `pat`) is left alone by the
      replacement, and so is the dot after it, provided `pat` has no dot. */
  lemma {:induction false} ReplaceSkipsSegment(w: string, rest: string, pat: string, rep: string, c: char)
    requires |pat| > 0 && '.' !in pat
    requires |w| < |pat| || (c in pat && c !in w)
    ensures Replace(w + "." + rest, pat, rep) == w + "." + Replace(rest, pat, rep)
    decreases |w|
  {
    var s := w + "." + rest;
    if |s| >= |pat| {
      NoMatchAtSegmentStart(w, rest, pat, c);
    }
    ReplaceKeepsHead(s, pat, rep);
    if |w| == 0 {
      assert s[0] == '.' && s[1..] == rest;
    } else {
      var w' := w[1..];
      assert s[0] == w[0] && s[1..] == w' + "." + rest;
      assert c !in w ==> c !in w';
      ReplaceSkipsSegment(w', rest, pat, rep, c);
      assert [w[0]] + w' == w;
      assert [w[0]] + (w' + "." + Replace(rest, pat, rep)) == w + "." + Replace(rest, pat, rep);
    }
  }
}

=== FILE: vocabulary.dfy ===
/** The categorical values the simulator draws from, each with the exact text
    the records carry, and the run-state order of a lifecycle. */
module Vocabulary {

  datatype User = UserA | UserB | UserC

  function UserText(u: User): string
  {
    match u
    case UserA => "userA"
    case UserB => "userB"
    case UserC => "userC"
  }

  datatype Env = Dev | Staging | Prod

  function EnvText(e: Env): string
  {
    match e
    case Dev => "dev"
    case Staging => "staging"
    case Prod => "prod"
  }

  /** The `event_type`: which run detail the record carries. */
  datatype Kind = PipelineRun | TaskRun

  function KindText(k: Kind): string
  {
    match k
    case PipelineRun => "pipelineRun"
    case TaskRun => "taskRun"
  }

  /** `event_state`. `Unknown` is what a successor of a record in any state
      other than queued or started gets. */
  datatype State = Queued | Started | Finished | Unknown

  function StateText(s: State): string
  {
    match s
    case Queued => "queued"
    case Started => "started"
    case Finished => "finished"
    case Unknown => "unknown"
  }

  datatype Version = V001 | V002 | V010

  function VersionText(v: Version): string
  {
    match v
    case V001 => "0.0.1"
    case V002 => "0.0.2"
    case V010 => "0.1.0"
  }

  datatype Task = Task1 | Task2 | Task3

  function TaskText(t: Task): string
  {
    match t
    case Task1 => "task1"
    case Task2 => "task2"
    case Task3 => "task3"
  }

  datatype Pipeline = Pipeline1 | Pipeline2 | Pipeline3 | Pipeline4

  function PipelineText(p: Pipeline): string
  {
    match p
    case Pipeline1 => "pipeline1"
    case Pipeline2 => "pipeline2"
    case Pipeline3 => "pipeline3"
    case Pipeline4 => "pipeline4"
  }

  datatype Outcome = Success | Error | Failure

  function OutcomeText(o: Outcome): string
  {
    match o
    case Success => "success"
    case Error => "error"
    case Failure => "failure"
  }

  /** The four messages an `error` outcome draws from. */
  datatype ErrorMessage = InvalidInput | Timeout | Cancelled | UnknownError

  function MessageText(m: ErrorMessage): string
  {
    match m
    case InvalidInput => "Invalid input param 123"
    case Timeout => "Timeout during execution"
    case Cancelled => "pipelineRun cancelled by user"
    case UnknownError => "Unknown error"
  }

  /** The fixed message of a `failure` outcome. */
  const UnitTestsFailed: string := "Unit tests failed"

  const ErrorMessages: set<string> :=
    {"Invalid input param 123", "Timeout during execution", "pipelineRun cancelled by user", "Unknown error"}

  /** The index of an `event_name`: `{type}1`, `{type}2` or `{type}3`. */
  type NameIndex = i: int | 1 <= i <= 3 witness 1

  function EventName(k: Kind, i: NameIndex): (r: string)
    ensures r == KindText(k) + "1" || r == KindText(k) + "2" || r == KindText(k) + "3"
  {
    KindText(k) + (if i == 1 then "1" else if i == 2 then "2" else "3")
  }

  /** The lifecycle transition: queued to started, started to finished, and
      anything else to unknown. */
  function Next(s: State): (r: State)
    ensures s == Queued ==> r == Started
    ensures s == Started ==> r == Finished
    ensures s == Finished || s == Unknown ==> r == Unknown
    ensures s != Unknown ==> r != s
  {
    match s
    case Queued => Started
    case Started => Finished
    case _ => Unknown
  }

  /** How many transitions separate a state from `finished`. */
  function StepsLeft(s: State): nat
  {
    match s
    case Queued => 2
    case Started => 1
    case _ => 0
  }

  lemma NextApproachesFinished(s: State)
    requires s == Queued || s == Started
    ensures StepsLeft(Next(s)) == StepsLeft(s) - 1
    ensures Next(s) == Finished <==> StepsLeft(s) == 1
  {
  }

  lemma MessageInVocabulary(m: ErrorMessage)
    ensures MessageText(m) in ErrorMessages
    ensures MessageText(m) != UnitTestsFailed
  {
  }
}
